=== FILE: README.md ===
# Cyclistic analytics dashboard: offline cache, station map and theme, in Dafny

This project models the three pieces of the Cyclistic bike-share dashboard that contain real logic.
Everything else in the dashboard is drawing calls.

- **The service worker (`sw.js`)** is modelled in modules `CacheStorage` and `ServiceWorker`.
  - The browser's CacheStorage is an ordered sequence of named caches. Each cache maps a URL to a response. `caches.match` probes the caches oldest first, and the first cache holding the URL answers. This follows the CacheStorage section of the W3C Service Workers specification.
  - Install opens the static cache and `addAll`s the manifest, all or nothing.
  - Activate deletes every cache that is neither the current static nor the current dynamic cache.
  - Fetch sends each request to exactly one policy: cache-first, network-first or stale-while-revalidate.
  - Every handler is a pure function. It takes the storage, the request and a network oracle, and it returns the reply, the new storage and whether the network was asked.
- **The station map's availability logic (`assets/bike-station-viz.js`)** is modelled in module `StationViz`. It covers:
  - the three-colour indicator rule;
  - the per-frame random drift of bike counts, clamped to capacity and rounded;
  - route resolution against recorded station ids;
  - the lifecycle: init, animate and cleanup.
- **The theme toggle and UI helpers (`assets/theme-toggle.js`)** are modelled in module `ThemeToggle`. It covers:
  - the starting theme and the theme chosen by `initTheme`;
  - the toggle rule;
  - the button's icon and title;
  - the Plotly relayout object per chart;
  - the mobile menu toggle and the chart height rule.
- **Shared helpers.** `Text.Includes` is JavaScript's `String.prototype.includes`. `Wrappers.Option` is an option type.

Quirks of the code that the model keeps on purpose:

- **The manifest test.** It compares the full absolute `request.url` with the manifest strings. Only the six absolute CDN URLs can match exactly; the relative entries `/` and `/index.html` never do. Install still stores them, under URLs resolved against the origin. So a navigation to the index goes network-first (`IndexNavigationIsNetworkFirst`).
- **The `.js` test.** It also matches `.json`, so JSON URLs are cache-first (`JsonIsCacheFirst`).
- **`CACHE_NAME` is never kept.** Activate deletes a cache with that name.
- **Opening a cache creates it.** The worker opens the static or dynamic cache before its scheme test. A non-http(s) request therefore still creates the cache, although no entry is written.
- **Lookup order.** `match` probes in creation order, and the static cache is created at install. A URL held by the static cache or by any other cache created before the dynamic one therefore shadows every copy the revalidation writes into the dynamic cache (`OlderCacheShadowsRevalidation`). A refreshed copy is served on the next request only when no older cache holds the URL (`RevalidatedCopyServedNext`).
- **The scheme guard.** It tests the request URL's protocol, not the response's.
- **Partial responses.** `cache.put` rejects a 206 response. The worker does not wait for the put, so the only effect is that nothing is stored, and the next identical request fetches again (`PartialResponseRefetched`). `addAll` rejects a 206 as well, so install fails on one.
- **`theme-toggle.js` does not parse as committed.** `initTheme` opened at line 5 is never closed, and lines 312-357 repeat lines 265-310. The model captures each function body as written.

## Model

| member | source | states |
|---|---|---|
| `Text.Includes` | sw.js:54 | the scan answers true exactly when the marker occurs at some position of the URL |
| `CacheStorage.Match` | sw.js:56 | no answer exactly when no cache holds the URL; otherwise the response of the earliest cache that holds it |
| `CacheStorage.Open` | sw.js:59 | the named cache exists afterwards; an existing one is returned untouched; otherwise an empty cache is appended after all others; names stay distinct |
| `CacheStorage.Put` | sw.js:61 | the named cache maps the URL to the response afterwards, and every other (cache, URL) lookup is unchanged |
| `CacheStorage.Delete` | sw.js:39 | exactly the caches with other names remain, entries intact, in their original relative order |
| `CacheStorage.OpenKeepsEntries` | sw.js:74 | opening a cache changes no lookup and no match |
| `CacheStorage.AgreeOnMatch` | sw.js:56 | match depends only on each cache's entry for the URL, position by position |
| `CacheStorage.PutKeepsOtherMatches` | sw.js:61 | a put changes no match answer for any other URL |
| `CacheStorage.PutAfterMissMatches` | sw.js:56-61 | a URL no cache held, once put after opening, is what match answers next |
| `ServiceWorker.Route` | sw.js:53-87 | cache-first iff the URL is a manifest string or contains ".css" or ".js"; otherwise network-first iff the destination is "document"; otherwise stale-while-revalidate |
| `ServiceWorker.JsonIsCacheFirst` | sw.js:54 | every URL containing ".json" is routed cache-first |
| `ServiceWorker.IndexNavigationIsNetworkFirst` | sw.js:54-70 | a navigation to origin + "/" or origin + "/index.html" is network-first although both are manifest entries |
| `ServiceWorker.AbsoluteEntriesHaveMarker` | sw.js:5-19 | every manifest entry is a site path or a CDN URL carrying a ".js" or ".css" marker |
| `ServiceWorker.StoreCopy` | sw.js:59-62 | the opened cache exists; the URL's entry is the response exactly when the scheme is http or https and the response is not partial (206); the caches keep their positions and names, at most one new cache follows them, other caches are untouched, and no other URL's match answer changes |
| `ServiceWorker.CacheFirstPolicy` | sw.js:55-67 | a hit is served with no fetch and no change; a miss fetches; failure iff miss and network failure; a miss that succeeds is served live and stored in the static cache when the scheme is http(s) and the response is not partial; cache order is kept and no other URL's match answer changes |
| `ServiceWorker.NetworkFirstPolicy` | sw.js:71-84 | always fetches; success is served and stored in the dynamic cache when the scheme is http(s) and the response is not partial; on failure the cross-cache lookup answers, and the reply fails iff no cache holds the URL; cache order is kept and no other URL's match answer changes |
| `ServiceWorker.StaleWhileRevalidatePolicy` | sw.js:88-100 | a hit is served whatever the network does; a miss gets the network's outcome; the only write is the dynamic cache on a successful, non-partial fetch of an http(s) request; cache order is kept and no other URL's match answer changes |
| `ServiceWorker.HandleFetch` | sw.js:49-103 | a non-http(s) request changes no entry; only the current caches and only the request's URL are ever written; the network is skipped exactly on a cache-first hit; cache order is kept and no other URL's match answer changes |
| `ServiceWorker.PutAll` | sw.js:26 | every URL of the batch is stored with the network's response; every other lookup, the caches' count, positions and names, the other-named caches and every other URL's match answer are unchanged |
| `ServiceWorker.AddAll` | sw.js:24-27 | opening the static cache and adding a list of URLs succeeds iff every fetch of the list is ok and not partial; on success every listed URL is stored with its response and static entries outside the list are kept; on failure no entry changes; other-named caches, cache order and every unlisted URL's match answer are unchanged |
| `ServiceWorker.Install` | sw.js:22-30 | succeeds iff every manifest fetch gives an ok, non-partial response (200-299 but not 206); on success every resolved manifest URL is in the static cache; on success static-cache entries outside the manifest are kept; on failure no entry changes; other-named caches never change; cache order is kept and no match answer changes for a URL outside the manifest |
| `ServiceWorker.KeepCurrent` | sw.js:36-41 | a cache survives iff it was present and its name is the current static or dynamic name; survivors keep their relative order |
| `ServiceWorker.KeepCurrentProperties` | sw.js:36-41 | the surviving names are exactly the current names present; their entries are unchanged; CACHE_NAME is gone; names stay distinct |
| `ServiceWorker.Activate` | sw.js:33-46 | deleting the stale names one by one leaves exactly the reference filter of the current caches |
| `ServiceWorker.CacheFirstRoundTrip` | sw.js:56-65 | after a cache-first miss answered by the network with a non-partial response, the same request is served that response with no fetch and no change |
| `ServiceWorker.PartialResponseRefetched` | sw.js:58-65 | a 206 answering a cache-first miss is served but not stored, so the same request goes to the network again |
| `ServiceWorker.RevalidatedCopyServedNext` | sw.js:89-99 | when only the dynamic cache may hold the URL, the revalidated response is served on the next request |
| `ServiceWorker.OlderCacheShadowsRevalidation` | sw.js:89-99 | when the earliest cache holding the URL comes before any dynamic cache, the next request still gets that cache's old response, whatever the revalidation fetched |
| `ServiceWorker.InstalledAssetsServedOffline` | sw.js:22-67 | when every manifest fetch is ok and not partial (206), install succeeds, and after it and activate every cache-first manifest URL is served from the caches without a fetch |
| `StationViz.Classify` | assets/bike-station-viz.js:92-100 | for a positive capacity: green iff 2*bikes > capacity, orange iff 2*bikes <= capacity < 5*bikes, red iff 5*bikes <= capacity; with zero capacity green iff some bikes |
| `StationViz.ClassifyMonotone` | assets/bike-station-viz.js:94-100 | more bikes never gives a worse colour |
| `StationViz.MakeStation` | assets/bike-station-viz.js:125-134 | the record keeps id, capacity and count, and its indicator follows the colour rule |
| `StationViz.CreateStations` | assets/bike-station-viz.js:68-135 | one record per listed station, appended in order after the existing ones, each with the listed id, capacity and count |
| `StationViz.Round` | assets/bike-station-viz.js:201 | the result is the nearest integer, halves rounded up |
| `StationViz.UpdateStation` | assets/bike-station-viz.js:197-212 | the count stays in [0, capacity]; from an in-range count it moves up by one for a drift of at least 0.5 below capacity, down by one for a drift below -0.5 above zero, and otherwise not at all; a count above capacity drops to the capacity, and a negative count or capacity gives 0; the station is either unchanged or has its new count with the indicator recoloured by the creation rule; an unchanged count leaves the station unchanged |
| `StationViz.AnimateFrame` | assets/bike-station-viz.js:188-228 | the next frame is scheduled; routes are kept; every station is updated by `UpdateStation` with its own drift, so ids and capacities are kept, counts end in range and indicators keep agreeing with counts |
| `StationViz.ResolveRoutes` | assets/bike-station-viz.js:148-152 | a route is kept iff both endpoint ids name a recorded station; never more routes than given |
| `StationViz.ResolveRoutesAppend` | assets/bike-station-viz.js:148-185 | resolution preserves input order |
| `StationViz.CreateRoutes` | assets/bike-station-viz.js:148-185 | the drawn routes become those already drawn followed by exactly the resolvable given routes, in input order |
| `StationViz.SampleColours` | assets/bike-station-viz.js:60-66 | on the page's data Millennium Park starts green and the other stations orange |
| `StationViz.SampleRoutesAllDrawn` | assets/bike-station-viz.js:140-146 | on the page's data every listed route is drawn, in order |
| `StationViz.Init` | assets/bike-station-viz.js:44-55 | earlier stations keep their ids and capacities and the listed stations follow; the drawn routes are the earlier ones followed by exactly the given routes that resolve against the recorded stations, in order; with a container the animation is scheduled |
| `StationViz.SameIdsSameResolution` | assets/bike-station-viz.js:149-152 | which routes resolve depends only on station ids, so a frame of animation never changes it |
| `StationViz.InitAsWritten` | assets/bike-station-viz.js:53 | with a container the call throws after recording, and no frame is ever scheduled |
| `StationViz.InitAsWrittenNeverAnimates` | assets/bike-station-viz.js:53-54 | the code as written never schedules a frame, where the intended init does |
| `StationViz.Cleanup` | assets/bike-station-viz.js:246-263 | nothing is scheduled, no station is recorded, and no route can resolve until stations are recorded again |
| `StationViz.ReinitAfterCleanup` | assets/bike-station-viz.js:261-262 | after cleanup, init records exactly the given stations and exactly the routes that resolve against them |
| `StationViz.CleanupAsWritten` | assets/bike-station-viz.js:246-254 | the frame is cancelled, then the call throws with stations and routes untouched |
| `StationViz.CleanupAsWrittenKeepsStations` | assets/bike-station-viz.js:252 | as written, recorded stations survive cleanup, where the intended cleanup empties them |
| `ThemeToggle.StartingTheme` | assets/theme-toggle.js:2 | the stored value when it is a non-empty string, otherwise light |
| `ThemeToggle.InitialChoice` | assets/theme-toggle.js:7-13 | a saved non-empty preference wins; otherwise dark iff the system prefers dark, else light |
| `ThemeToggle.Toggle` | assets/theme-toggle.js:72 | the result is dark or light and differs from the input in being dark |
| `ThemeToggle.ToggleInvolution` | assets/theme-toggle.js:72 | toggling twice restores the theme iff it was dark or light |
| `ThemeToggle.ButtonFor` | assets/theme-toggle.js:91-92 | sun icon iff dark, moon otherwise; the title names the theme a click would switch to |
| `ThemeToggle.UpdateButton` | assets/theme-toggle.js:89-94 | an existing button is made to match the theme; without one nothing changes |
| `ThemeToggle.InitialPage` | assets/theme-toggle.js:2-3 | before initialisation the theme is the starting theme, the stored preference is as given, and there is no attribute and no button |
| `ThemeToggle.InitThemeKeepsStartingTheme` | assets/theme-toggle.js:2-13 | on a fresh page, initialisation keeps the starting theme iff a usable preference is stored or the system does not prefer dark |
| `ThemeToggle.InitTheme` | assets/theme-toggle.js:5-24 | the chosen theme is applied to the document; the preference is not written; a created button matches the theme |
| `ThemeToggle.ToggleTheme` | assets/theme-toggle.js:71-87 | the new theme is the toggled one, set on the document and persisted; the button matches; with Plotly loaded each laid-out chart gets the new theme's update |
| `ThemeToggle.ToggleTwiceRestores` | assets/theme-toggle.js:71-75 | two clicks from dark or light restore the theme, the attribute, the stored preference and the button |
| `ThemeToggle.PaletteFor` | assets/theme-toggle.js:101-105 | the dark colours for "dark", the light colours for every other theme |
| `ThemeToggle.StandardUpdate` | assets/theme-toggle.js:109-121 | the eleven standard keys, exactly |
| `ThemeToggle.ChartUpdate` | assets/theme-toggle.js:109-126 | the keys are the eleven standard ones plus the Sankey node outline iff some trace is a Sankey; each key carries its role's palette colour |
| `ThemeToggle.ChartUpdateSize` | assets/theme-toggle.js:109-126 | the update has 11 keys, 12 with a Sankey trace |
| `ThemeToggle.PathsDistinct` | assets/theme-toggle.js:109-125 | the twelve attribute paths are pairwise distinct, so the enum-keyed update is the path-keyed object |
| `ThemeToggle.ChartUpdateOnlyDarknessMatters` | assets/theme-toggle.js:101 | two themes that agree on being dark give identical updates |
| `ThemeToggle.UpdateChartThemes` | assets/theme-toggle.js:96-134 | one update per laid-out chart, none for the others |
| `ThemeToggle.ToggleMenu` | assets/theme-toggle.js:223-227 | the open state flips and aria-expanded reads "true" iff the menu is now open |
| `ThemeToggle.ToggleMenuTwice` | assets/theme-toggle.js:223-227 | two activations restore the open state, and the attribute then reports it |
| `ThemeToggle.ChartHeight` | assets/theme-toggle.js:249-258 | 300px iff the width is below 768, 400px iff it is 768 or more |
| `ThemeToggle.ChartHeightMonotone` | assets/theme-toggle.js:250-257 | a wider window never gets a shorter chart |

## Left out

- `assets/chart-functions.js` is not part of this model. It holds literal chart data passed to the plotting library, a fixed tab-to-chart table, and DOM loading and error wrappers.
- Three.js scene, camera, renderer, lights, meshes, canvas labels and `resize3DVisualization` are not modelled. They are calls into a rendering library.
- The scene-clearing loop in cleanup is not modelled, for the same reason.
- Latitude/longitude conversion and the quadratic Bézier route curves are not modelled. They are floating-point geometry with no effect on the logic above.
- The route pulse opacity is not modelled. It depends on the wall clock and `Math.sin`.
- `update3DVisualization` is not modelled. It only logs.
- Floating point: the colour ratio and the drift are exact reals, not IEEE doubles. For station sizes near the sample data's the colour comparisons agree.
- StationViz.UpdateStation: the clamped sum is exact, so rounding can differ from the double computation. With 10 bikes, capacity 11 or more and a drift of 0.5 - 2^-51, the double sum rounds to 10.5 and `Math.round` gives 11, while the model keeps 10.
- Randomness: the per-frame drift is a parameter in [-1, 1), one value per station.
- `skipWaiting` and `clients.claim` are not modelled. They are browser runtime actions with no effect on the caches.
- Asynchrony is not modelled. Every store write, including the fire-and-forget revalidation write, is treated as done in the returned storage, and no interleaving of concurrent requests is modelled.
- URL parsing is not modelled. The request carries its URL's protocol as a field. Install resolves a manifest path by prefixing the origin, which is enough for the manifest's absolute paths.
- Cache matching is by URL only. Request method and query-string options of the Cache API are not modelled. The fetch handler has no method filter, but the dashboard only issues GET requests.
- CacheStorage.Match: URLs are compared as whole strings. The Cache API ignores the fragment (`#...`) when matching, so a copy stored for "app.js#v2" would also answer "app.js"; the model does not strip fragments.
- ServiceWorker.Install: responses carry no headers, so the rejection of a response with `Vary: *` by `addAll` is not modelled; nor are error-type responses, which the network oracle reports as a failed fetch, and duplicate requests, which this manifest does not contain.
- ServiceWorker.StoreCopy: the rejection of a put for a response with `Vary: *` is not modelled, because responses carry no headers; a 206 rejection is modelled.
- The try/catch around `Plotly.relayout` is not modelled. The model states the update object sent, not whether Plotly accepts it.
- `createThemeToggle`'s styling and hover handlers, scroll animations, smooth scrolling, loading and error panels, touch handlers and performance monitoring are not modelled. They are DOM plumbing with no state the rest depends on.
- ServiceWorker.InstalledAssetsServedOffline: states that a stored response is served, not which one, because a dynamic cache created before the static one may hold the same URL and answer first.

## Findings

| source | as written | input that shows it | evidently intended | confidence | as-written member | corrected member |
|---|---|---|---|---|---|---|
| assets/bike-station-viz.js:53 | `container.appendChild(renderer.domElement)` reads `renderer`, which no script declares (the renderer is `rendererBS`) | any page with a `3d-visualization` container: the call throws a ReferenceError and `animate()` is never reached | attach `rendererBS.domElement` and start the animation loop | high: no script of the site declares `renderer`; not executed | `StationViz.InitAsWritten` (shown by `StationViz.InitAsWrittenNeverAnimates`) | `StationViz.Init` |
| assets/bike-station-viz.js:252 | `if (renderer)` reads the same undeclared name | any call of `cleanup3DVisualization`: it throws after cancelling the frame and before the station and route lists are reset | test and dispose `rendererBS`, then clear the scene and both lists | high: no script of the site declares `renderer`; not executed | `StationViz.CleanupAsWritten` (shown by `StationViz.CleanupAsWrittenKeepsStations`) | `StationViz.Cleanup` (used by `StationViz.ReinitAfterCleanup`) |

=== FILE: cache_storage.dfy ===
/** The browser's CacheStorage as the service worker sees it: an ordered map from
    cache name to a cache, each cache a map from request URL to response. Caches are
    kept in creation order, which is the order `match` probes them in (section
    "CacheStorage" of the W3C Service Workers specification). */
module CacheStorage {
  import opened Wrappers

  type Url = string

  /** A stored or fetched HTTP response: status code and body. */
  datatype Response = Response(status: int, body: string)

  /** A named cache and its entries, keyed by request URL (GET requests only). */
  datatype Cache = Cache(name: string, entries: map<Url, Response>)

  /** All caches of an origin, oldest first. */
  type Storage = seq<Cache>

  predicate HasCache(s: Storage, name: string) {
    exists i :: 0 <= i < |s| && s[i].name == name
  }

  /** No two caches share a name; every operation below preserves this. */
  predicate WellFormed(s: Storage) {
    forall i, j :: 0 <= i < j < |s| ==> s[i].name != s[j].name
  }

  /** The entry for `url` in the cache called `name`, if both exist. */
  function Lookup(s: Storage, name: string, url: Url): (r: Option<Response>)
    ensures r.Some? ==> exists i :: 0 <= i < |s| && s[i].name == name && url in s[i].entries
                                   && r.value == s[i].entries[url]
    ensures !HasCache(s, name) ==> r.None?
    ensures WellFormed(s) ==> forall i :: 0 <= i < |s| && s[i].name == name ==>
      r == (if url in s[i].entries then Some(s[i].entries[url]) else None)
  {
    if |s| == 0 then None
    else if s[0].name == name then (if url in s[0].entries then Some(s[0].entries[url]) else None)
    else Lookup(s[1..], name, url)
  }

  /** `caches.match(request)`: probe every cache in order; the first one holding
      the URL answers. */
  function Match(s: Storage, url: Url): (r: Option<Response>)
    ensures r.None? <==> forall i :: 0 <= i < |s| ==> url !in s[i].entries
    ensures r.Some? ==> exists i :: 0 <= i < |s| && url in s[i].entries && r.value == s[i].entries[url]
                                   && forall j :: 0 <= j < i ==> url !in s[j].entries
  {
    if |s| == 0 then None
    else if url in s[0].entries then Some(s[0].entries[url])
    else
      var r := Match(s[1..], url);
      assert forall i :: 1 <= i < |s| ==> s[i] == s[1..][i - 1];
      r
  }

  /** `caches.open(name)`: the existing cache of that name, or a new empty one
      appended after all existing caches. */
  function Open(s: Storage, name: string): (r: Storage)
    ensures HasCache(r, name)
    ensures |s| <= |r| <= |s| + 1 && r[..|s|] == s
    ensures HasCache(s, name) ==> r == s
    ensures |r| == |s| + 1 ==> r[|s|].entries == map[]
    ensures WellFormed(s) ==> WellFormed(r)
  {
    if HasCache(s, name) then s
    else
      var r := s + [Cache(name, map[])];
      assert r[|s|].name == name;
      r
  }

  /** Cache `a` occurs in `s` before an occurrence of cache `b`. */
  ghost predicate Before(s: Storage, a: Cache, b: Cache) {
    exists i, j :: 0 <= i < j < |s| && s[i] == a && s[j] == b
  }

  /** Every two caches of `r` appear in `s` in the same relative order. */
  ghost predicate InOrder(r: Storage, s: Storage) {
    forall i, j :: 0 <= i < j < |r| ==> Before(s, r[i], r[j])
  }

  /** Keeping or dropping the first cache of `s` in front of an in-order
      selection from the rest gives an in-order selection from `s`. */
  lemma InOrderCons(s: Storage, rest: Storage, keep: bool)
    requires |s| > 0
    requires forall c :: c in rest ==> c in s[1..]
    requires InOrder(rest, s[1..])
    ensures InOrder((if keep then [s[0]] else []) + rest, s)
  {
    var r := (if keep then [s[0]] else []) + rest;
    var d := if keep then 1 else 0;
    forall i, j | 0 <= i < j < |r|
      ensures Before(s, r[i], r[j])
    {
      assert r[j] == rest[j - d] && rest[j - d] in s[1..];
      var k :| 0 <= k < |s[1..]| && s[1..][k] == rest[j - d];
      if keep && i == 0 {
        assert r[i] == s[0] && r[j] == s[k + 1];
        assert 0 <= 0 < k + 1 < |s|;
      } else {
        assert Before(s[1..], rest[i - d], rest[j - d]);
        var i', j' :| 0 <= i' < j' < |s[1..]| && s[1..][i'] == rest[i - d] && s[1..][j'] == rest[j - d];
        assert r[i] == s[i' + 1] && r[j] == s[j' + 1];
      }
    }
    assert InOrder(r, s);
  }

  /** `cache.put(request, response)` on the cache called `name`: that cache maps
      `url` to `resp` afterwards; no other entry of any cache changes. */
  function Put(s: Storage, name: string, url: Url, resp: Response): (r: Storage)
    ensures |r| == |s|
    ensures forall i :: 0 <= i < |s| ==> r[i].name == s[i].name
    ensures forall i :: 0 <= i < |s| && s[i].name != name ==> r[i] == s[i]
    ensures forall i :: 0 <= i < |s| && s[i].name == name ==> r[i].entries == s[i].entries[url := resp]
    ensures forall n, u ::
      Lookup(r, n, u) == (if n == name && u == url && HasCache(s, name) then Some(resp) else Lookup(s, n, u))
  {
    if |s| == 0 then []
    else
      var rest := Put(s[1..], name, url, resp);
      var head := if s[0].name == name then Cache(name, s[0].entries[url := resp]) else s[0];
      var r := [head] + rest;
      assert r[1..] == rest;
      assert forall i :: 1 <= i < |s| ==> s[i] == s[1..][i - 1] && r[i] == rest[i - 1];
      assert HasCache(s, name) <==> s[0].name == name || HasCache(s[1..], name);
      r
  }

  /** `caches.delete(name)`: drop the cache called `name`; every other cache stays,
      entries intact, in the same order. */
  function Delete(s: Storage, name: string): (r: Storage)
    ensures forall c :: c in r <==> c in s && c.name != name
    ensures !HasCache(r, name)
    ensures |r| <= |s|
    ensures InOrder(r, s)
  {
    if |s| == 0 then []
    else
      var rest := Delete(s[1..], name);
      var r := if s[0].name == name then rest else [s[0]] + rest;
      assert forall c :: c in s <==> c == s[0] || c in s[1..];
      InOrderCons(s, rest, s[0].name != name);
      assert r == (if s[0].name != name then [s[0]] else []) + rest;
      r
  }

  /** `r` keeps the caches of `s` in place and under the same names, and may
      add one more after them: what `open` followed by `put` can do. */
  predicate SameOrder(s: Storage, r: Storage) {
    |s| <= |r| <= |s| + 1 && forall i :: 0 <= i < |s| ==> r[i].name == s[i].name
  }

  /** `a` and `b` hold the same response for `u` cache by cache. */
  predicate AgreeOn(a: Storage, b: Storage, u: Url) {
    |a| == |b|
    && forall i :: 0 <= i < |a| ==>
         (u in a[i].entries <==> u in b[i].entries)
         && (u in a[i].entries ==> a[i].entries[u] == b[i].entries[u])
  }

  /** Storages that agree on `u` cache by cache give the same `match` for it. */
  lemma {:induction false} AgreeOnMatch(a: Storage, b: Storage, u: Url)
    requires AgreeOn(a, b, u)
    ensures Match(a, u) == Match(b, u)
  {
    if |a| > 0 {
      assert AgreeOn(a[1..], b[1..], u) by {
        forall i | 0 <= i < |a[1..]|
          ensures (u in a[1..][i].entries <==> u in b[1..][i].entries)
                  && (u in a[1..][i].entries ==> a[1..][i].entries[u] == b[1..][i].entries[u])
        {
          assert a[1..][i] == a[i + 1] && b[1..][i] == b[i + 1];
        }
      }
      AgreeOnMatch(a[1..], b[1..], u);
    }
  }

  /** A put changes no `match` answer for any other URL. */
  lemma PutKeepsOtherMatches(s: Storage, name: string, url: Url, resp: Response, u: Url)
    requires u != url
    ensures Match(Put(s, name, url, resp), u) == Match(s, u)
  {
    var r := Put(s, name, url, resp);
    assert AgreeOn(r, s, u) by {
      forall i | 0 <= i < |r|
        ensures (u in r[i].entries <==> u in s[i].entries) && (u in r[i].entries ==> r[i].entries[u] == s[i].entries[u])
      {
        if s[i].name == name {
          assert r[i].entries == s[i].entries[url := resp];
        }
      }
    }
    AgreeOnMatch(r, s, u);
  }

  /** Opening a cache adds no entry: every lookup and every match is as before. */
  lemma OpenKeepsEntries(s: Storage, name: string)
    ensures forall n, u :: Lookup(Open(s, name), n, u) == Lookup(s, n, u)
    ensures forall u :: Match(Open(s, name), u) == Match(s, u)
  {
    var r := Open(s, name);
    if !HasCache(s, name) {
      forall n, u ensures Lookup(r, n, u) == Lookup(s, n, u) {
        LookupAppend(s, Cache(name, map[]), n, u);
      }
      forall u ensures Match(r, u) == Match(s, u) {
        MatchAppend(s, Cache(name, map[]), u);
      }
    }
  }

  lemma {:induction false} LookupAppend(s: Storage, c: Cache, n: string, u: Url)
    requires c.entries == map[]
    ensures Lookup(s + [c], n, u) == Lookup(s, n, u)
  {
    if |s| > 0 {
      assert (s + [c])[1..] == s[1..] + [c];
      LookupAppend(s[1..], c, n, u);
    }
  }

  lemma {:induction false} MatchAppend(s: Storage, c: Cache, u: Url)
    requires c.entries == map[]
    ensures Match(s + [c], u) == Match(s, u)
  {
    if |s| > 0 {
      assert (s + [c])[1..] == s[1..] + [c];
      MatchAppend(s[1..], c, u);
    }
  }

  /** When no cache of another name holds `url`, putting it into the cache called
      `name` makes `match` answer with the new response. */
  lemma MatchAfterPut(s: Storage, name: string, url: Url, resp: Response)
    requires HasCache(s, name)
    requires forall i :: 0 <= i < |s| && s[i].name != name ==> url !in s[i].entries
    ensures Match(Put(s, name, url, resp), url) == Some(resp)
  {
    var r := Put(s, name, url, resp);
    var k :| 0 <= k < |s| && s[k].name == name;
    assert url in r[k].entries;
    var m := Match(r, url);
    var i :| 0 <= i < |r| && url in r[i].entries && m.value == r[i].entries[url];
    assert s[i].name == name;
  }

  /** A URL no cache holds, once put into some cache (opened first, as the worker
      does), is what `match` answers with next. */
  lemma PutAfterMissMatches(s: Storage, name: string, url: Url, resp: Response)
    requires Match(s, url).None?
    ensures Match(Put(Open(s, name), name, url, resp), url) == Some(resp)
  {
    MatchAfterPut(Open(s, name), name, url, resp);
  }

  /** A cache holding the URL makes `match` hit. */
  lemma LookupHitMatches(s: Storage, name: string, url: Url)
    requires Lookup(s, name, url).Some?
    ensures Match(s, url).Some?
  {
  }
}

=== FILE: service_worker.dfy ===
/** The offline cache of sw.js: install fills the static cache from a fixed
    manifest, activate deletes caches of other versions, and every intercepted
    request is answered by exactly one of three caching policies. The network is an
    oracle passed in; the background store write of stale-while-revalidate is
    treated as completed in the returned storage. */
module ServiceWorker {
  import opened Wrappers
  import opened Text
  import opened CacheStorage

  const CACHE_NAME := "cyclistic-analytics-v2"
  const STATIC_CACHE := "cyclistic-static-v2"
  const DYNAMIC_CACHE := "cyclistic-dynamic-v2"

  /** The static asset manifest, as written: relative paths and CDN URLs. */
  const Manifest: seq<string> := [
    "/",
    "/index.html",
    "/manifest.json",
    "/styles.min.css",
    "/chart-functions.min.js",
    "/bike-station-viz.min.js",
    "/theme-toggle.min.js",
    "https://d3js.org/d3.v7.min.js",
    "https://cdnjs.cloudflare.com/ajax/libs/prism/1.29.0/themes/prism-tomorrow.min.css",
    "https://cdnjs.cloudflare.com/ajax/libs/prism/1.29.0/prism.min.js",
    "https://cdnjs.cloudflare.com/ajax/libs/prism/1.29.0/components/prism-python.min.js",
    "https://cdnjs.cloudflare.com/ajax/libs/prism/1.29.0/components/prism-r.min.js",
    "https://cdnjs.cloudflare.com/ajax/libs/prism/1.29.0/components/prism-sql.min.js"
  ]

  /** An intercepted request: its absolute URL, the protocol of that URL
      (`"https:"`, `"chrome-extension:"`, ...) and its destination (`"document"`,
      `"image"`, `"script"`, ...). */
  datatype Request = Request(url: Url, protocol: string, destination: string)

  /** What the network does with a fetch: a response, or a rejected promise. */
  datatype NetResult = Ok(response: Response) | Fail

  /** What the page receives: a response, or a network error. */
  datatype Reply = Served(response: Response) | NetworkError

  /** The outcome of one intercepted request: the reply, the storage after the
      policy's writes, and whether the network was asked. */
  datatype Handled = Handled(reply: Reply, storage: Storage, fetched: bool)

  datatype Strategy = CacheFirst | NetworkFirst | StaleWhileRevalidate

  datatype InstallResult = Installed(storage: Storage) | InstallFailed(storage: Storage)

  /** Only http and https responses may be stored. */
  predicate HttpScheme(req: Request) {
    req.protocol == "https:" || req.protocol == "http:"
  }

  /** `cache.put` rejects a partial (206) response; the worker does not wait
      for the put, so the rejection only means that nothing is stored. */
  predicate Cacheable(resp: Response) {
    resp.status != 206
  }

  /** The caches activate keeps. */
  predicate IsCurrent(name: string) {
    name == STATIC_CACHE || name == DYNAMIC_CACHE
  }

  // ---------------------------------------------------------------- routing

  /** The request is served cache-first: its full URL is a manifest string, or
      the URL contains ".css" or ".js" somewhere. */
  ghost predicate IsStaticRequest(req: Request) {
    || req.url in Manifest
    || Contains(req.url, ".css")
    || Contains(req.url, ".js")
  }

  /** The fetch handler's choice of policy. */
  function Route(req: Request): (r: Strategy)
    ensures r == CacheFirst <==> IsStaticRequest(req)
    ensures r == NetworkFirst <==> !IsStaticRequest(req) && req.destination == "document"
    ensures r == StaleWhileRevalidate <==> !IsStaticRequest(req) && req.destination != "document"
  {
    if req.url in Manifest || Includes(req.url, ".css") || Includes(req.url, ".js") then CacheFirst
    else if req.destination == "document" then NetworkFirst
    else StaleWhileRevalidate
  }

  /** The ".js" test also catches ".json": every JSON URL is served cache-first. */
  lemma JsonIsCacheFirst(req: Request)
    requires Contains(req.url, ".json")
    ensures Route(req) == CacheFirst
  {
    var i: nat :| OccursAt(req.url, ".json", i);
    assert req.url[i..i + 3] == req.url[i..i + 5][..3];
    assert OccursAt(req.url, ".js", i);
  }

  /** The manifest test compares the whole absolute request URL with the manifest
      strings, so the relative entries "/" and "/index.html" never match: a page
      navigation to the site's index is network-first although install stored it. */
  lemma IndexNavigationIsNetworkFirst(origin: string)
    requires |origin| > 0 && origin[0] == 'h'
    requires !Contains(origin, ".css") && !Contains(origin, ".js")
    ensures Route(Request(origin + "/index.html", "https:", "document")) == NetworkFirst
    ensures Route(Request(origin + "/", "https:", "document")) == NetworkFirst
  {
    SitePathAddsNoMarker(origin, "/index.html");
    SitePathAddsNoMarker(origin, "/");
    UnmarkedAbsoluteDocument(Request(origin + "/index.html", "https:", "document"));
    UnmarkedAbsoluteDocument(Request(origin + "/", "https:", "document"));
  }

  /** An absolute URL without a ".css" or ".js" marker matches no manifest string;
      as a navigation it is network-first. */
  lemma UnmarkedAbsoluteDocument(req: Request)
    requires |req.url| > 0 && req.url[0] == 'h'
    requires !Contains(req.url, ".css") && !Contains(req.url, ".js")
    requires req.destination == "document"
    ensures Route(req) == NetworkFirst
  {
    AbsoluteEntriesHaveMarker();
  }

  /** Every manifest entry is either a site path starting with '/' or an absolute
      URL ending in ".js" or ".css". */
  lemma AbsoluteEntriesHaveMarker()
    ensures forall m :: m in Manifest ==> |m| > 0 && (m[0] == '/' || Contains(m, ".js") || Contains(m, ".css"))
  {
    assert forall k :: 0 <= k < 7 ==> Manifest[k][0] == '/';
    D3HasMarker();
    PrismThemeHasMarker();
    PrismHasMarker();
    PrismPythonHasMarker();
    PrismRHasMarker();
    PrismSqlHasMarker();
    forall m | m in Manifest
      ensures |m| > 0 && (m[0] == '/' || Contains(m, ".js") || Contains(m, ".css"))
    {
      var k :| 0 <= k < |Manifest| && Manifest[k] == m;
    }
  }

  // One lemma per CDN entry keeps each string-literal proof small.
  lemma D3HasMarker() ensures Contains(Manifest[7], ".js") { EndsWith(Manifest[7], ".js"); }
  lemma PrismThemeHasMarker() ensures Contains(Manifest[8], ".css") { EndsWith(Manifest[8], ".css"); }
  lemma PrismHasMarker() ensures Contains(Manifest[9], ".js") { EndsWith(Manifest[9], ".js"); }
  lemma PrismPythonHasMarker() ensures Contains(Manifest[10], ".js") { EndsWith(Manifest[10], ".js"); }
  lemma PrismRHasMarker() ensures Contains(Manifest[11], ".js") { EndsWith(Manifest[11], ".js"); }
  lemma PrismSqlHasMarker() ensures Contains(Manifest[12], ".js") { EndsWith(Manifest[12], ".js"); }

  /** A string that ends with `sub` contains it. */
  lemma EndsWith(s: string, sub: string)
    requires |sub| <= |s| && s[|s| - |sub|..] == sub
    ensures Contains(s, sub)
  {
    assert OccursAt(s, sub, |s| - |sub|);
  }


  /** Appending "/" or "/index.html" cannot create a ".css" or ".js" occurrence:
      neither path contains one, and neither marker contains '/'. */
  lemma SitePathAddsNoMarker(origin: string, path: string)
    requires path == "/index.html" || path == "/"
    requires !Contains(origin, ".css") && !Contains(origin, ".js")
    ensures !Contains(origin + path, ".css") && !Contains(origin + path, ".js")
  {
    NoStraddle(origin, path, ".css");
    NoStraddle(origin, path, ".js");
  }

  lemma NoStraddle(origin: string, path: string, marker: string)
    requires path == "/index.html" || path == "/"
    requires marker == ".css" || marker == ".js"
    requires !Contains(origin, marker)
    ensures !Contains(origin + path, marker)
  {
    forall i: nat ensures !OccursAt(origin + path, marker, i) {
      NoStraddleAt(origin, path, marker, i);
    }
  }

  /** The marker does not start at position `i` of origin + path. */
  lemma NoStraddleAt(origin: string, path: string, marker: string, i: nat)
    requires path == "/index.html" || path == "/"
    requires marker == ".css" || marker == ".js"
    requires !Contains(origin, marker)
    ensures !OccursAt(origin + path, marker, i)
  {
    var s := origin + path;
    var m := |marker|;
    if i + m <= |s| {
      var w := s[i..i + m];
      if i + m <= |origin| {
        // wholly inside the origin, which has no occurrence
        assert w == origin[i..i + m];
        assert !OccursAt(origin, marker, i);
        assert w != marker;
      } else if i >= |origin| {
        // wholly inside the path: its only '.' is followed by 'h'
        var j := i - |origin|;
        if s[i] != '.' {
          assert w[0] == s[i] != marker[0];
        } else {
          assert path[j] == '.';
          assert path == "/index.html" && j == 6;
          assert w[1] == path[7] == 'h' != marker[1];
        }
        assert w != marker;
      } else {
        // straddling: the path's leading '/' would have to be a marker character
        var k := |origin| - i;
        assert w[k] == path[0] == '/';
        assert marker[k] != '/';
        assert w != marker;
      }
    }
  }

  // ---------------------------------------------------------------- policies

  /** Open the named cache and, for an http(s) request only, put a copy of the
      response under the request URL; a put of a partial response is rejected
      and stores nothing. */
  function StoreCopy(s: Storage, name: string, req: Request, resp: Response): (r: Storage)
    ensures HasCache(r, name)
    ensures WellFormed(s) ==> WellFormed(r)
    ensures forall n, u ::
      Lookup(r, n, u) == (if n == name && u == req.url && HttpScheme(req) && Cacheable(resp) then Some(resp) else Lookup(s, n, u))
    ensures SameOrder(s, r)
    ensures forall i :: 0 <= i < |s| && s[i].name != name ==> r[i] == s[i]
    ensures forall u :: u != req.url ==> Match(r, u) == Match(s, u)
  {
    var o := Open(s, name);
    OpenKeepsEntries(s, name);
    assert forall i :: 0 <= i < |s| ==> o[i] == s[i] by {
      assert o[..|s|] == s;
    }
    if HttpScheme(req) && Cacheable(resp) then
      var r := Put(o, name, req.url, resp);
      forall u | u != req.url ensures Match(r, u) == Match(s, u) {
        PutKeepsOtherMatches(o, name, req.url, resp, u);
      }
      r
    else
      o
  }

  /** Serve from any cache; on a miss fetch, store a copy in the static cache and
      serve the live response. A failed fetch after a miss is not caught. */
  function CacheFirstPolicy(s: Storage, req: Request, net: NetResult): (h: Handled)
    ensures h.fetched <==> Match(s, req.url).None?
    ensures Match(s, req.url).Some? ==> h.reply == Served(Match(s, req.url).value) && h.storage == s
    ensures h.reply.NetworkError? <==> Match(s, req.url).None? && net.Fail?
    ensures Match(s, req.url).None? && net.Ok? ==> h.reply == Served(net.response)
    ensures net.Fail? ==> h.storage == s
    ensures forall n, u ::
              Lookup(h.storage, n, u) == (if n == STATIC_CACHE && u == req.url && HttpScheme(req) && Match(s, req.url).None? && net.Ok? && Cacheable(net.response)
                                          then Some(net.response) else Lookup(s, n, u))
    ensures SameOrder(s, h.storage)
    ensures forall u :: u != req.url ==> Match(h.storage, u) == Match(s, u)
    ensures WellFormed(s) ==> WellFormed(h.storage)
  {
    match Match(s, req.url)
    case Some(cached) => Handled(Served(cached), s, false)
    case None =>
      match net
      case Fail => Handled(NetworkError, s, true)
      case Ok(resp) => Handled(Served(resp), StoreCopy(s, STATIC_CACHE, req, resp), true)
  }

  /** Fetch first, storing a copy in the dynamic cache; when the fetch fails,
      fall back to any cache, and fail if none holds the URL. */
  function NetworkFirstPolicy(s: Storage, req: Request, net: NetResult): (h: Handled)
    ensures h.fetched
    ensures net.Ok? ==> h.reply == Served(net.response)
    ensures net.Fail? ==> h.storage == s && h.reply == (if Match(s, req.url).Some? then Served(Match(s, req.url).value) else NetworkError)
    ensures h.reply.NetworkError? <==> net.Fail? && forall i :: 0 <= i < |s| ==> req.url !in s[i].entries
    ensures forall n, u ::
              Lookup(h.storage, n, u) == (if n == DYNAMIC_CACHE && u == req.url && HttpScheme(req) && net.Ok? && Cacheable(net.response) then Some(net.response) else Lookup(s, n, u))
    ensures SameOrder(s, h.storage)
    ensures forall u :: u != req.url ==> Match(h.storage, u) == Match(s, u)
    ensures WellFormed(s) ==> WellFormed(h.storage)
  {
    match net
    case Ok(resp) => Handled(Served(resp), StoreCopy(s, DYNAMIC_CACHE, req, resp), true)
    case Fail =>
      match Match(s, req.url)
      case Some(cached) => Handled(Served(cached), s, true)
      case None => Handled(NetworkError, s, true)
  }

  /** Look up any cache and always fetch; a successful fetch refreshes the dynamic
      cache. A hit is served whatever the network does; a miss is answered by the
      fetch itself. */
  function StaleWhileRevalidatePolicy(s: Storage, req: Request, net: NetResult): (h: Handled)
    ensures h.fetched
    ensures Match(s, req.url).Some? ==> h.reply == Served(Match(s, req.url).value)
    ensures Match(s, req.url).None? ==> h.reply == (if net.Ok? then Served(net.response) else NetworkError)
    ensures net.Fail? ==> h.storage == s
    ensures forall n, u ::
              Lookup(h.storage, n, u) == (if n == DYNAMIC_CACHE && u == req.url && HttpScheme(req) && net.Ok? && Cacheable(net.response) then Some(net.response) else Lookup(s, n, u))
    ensures SameOrder(s, h.storage)
    ensures forall u :: u != req.url ==> Match(h.storage, u) == Match(s, u)
    ensures WellFormed(s) ==> WellFormed(h.storage)
  {
    var cached := Match(s, req.url);
    var storage := if net.Ok? then StoreCopy(s, DYNAMIC_CACHE, req, net.response) else s;
    var reply :=
      if cached.Some? then Served(cached.value)
      else if net.Ok? then Served(net.response)
      else NetworkError;
    Handled(reply, storage, true)
  }

  /** The fetch handler: route the request, then apply that one policy. Whatever
      the policy, a non-http(s) request changes no entry, only the static or the
      dynamic cache is ever written, and the network is skipped only on a
      cache-first hit. */
  function HandleFetch(s: Storage, req: Request, net: NetResult): (h: Handled)
    ensures !HttpScheme(req) ==> forall n, u :: Lookup(h.storage, n, u) == Lookup(s, n, u)
    ensures forall n, u :: !IsCurrent(n) ==> Lookup(h.storage, n, u) == Lookup(s, n, u)
    ensures forall n, u :: u != req.url ==> Lookup(h.storage, n, u) == Lookup(s, n, u)
    ensures !h.fetched <==> IsStaticRequest(req) && Match(s, req.url).Some?
    ensures SameOrder(s, h.storage)
    ensures forall u :: u != req.url ==> Match(h.storage, u) == Match(s, u)
    ensures WellFormed(s) ==> WellFormed(h.storage)
  {
    match Route(req)
    case CacheFirst => CacheFirstPolicy(s, req, net)
    case NetworkFirst => NetworkFirstPolicy(s, req, net)
    case StaleWhileRevalidate => StaleWhileRevalidatePolicy(s, req, net)
  }

  // ---------------------------------------------------------------- install

  /** A manifest entry as a request URL: site paths are resolved against the
      worker's origin, absolute URLs stay as they are. */
  function Resolve(origin: string, entry: string): Url {
    if |entry| > 0 && entry[0] == '/' then origin + entry else entry
  }

  function ManifestUrls(origin: string): (r: seq<Url>)
    ensures |r| == |Manifest|
    ensures forall k :: 0 <= k < |Manifest| ==> r[k] == Resolve(origin, Manifest[k])
  {
    seq(|Manifest|, k requires 0 <= k < |Manifest| => Resolve(origin, Manifest[k]))
  }

  /** `addAll` accepts only a response with an ok status (200 to 299) that is
      not partial (206). */
  predicate Storable(n: NetResult) {
    n.Ok? && 200 <= n.response.status <= 299 && Cacheable(n.response)
  }

  /** Put every URL of a batch, each with the network's response for it. */
  function PutAll(s: Storage, name: string, urls: seq<Url>, network: Url -> NetResult): (r: Storage)
    requires forall u :: u in urls ==> network(u).Ok?
    ensures forall n, u ::
              Lookup(r, n, u) == (if n == name && u in urls && HasCache(s, name) then Some(network(u).response)
                                  else Lookup(s, n, u))
    ensures HasCache(r, name) <==> HasCache(s, name)
    ensures WellFormed(s) ==> WellFormed(r)
    ensures |r| == |s| && forall i :: 0 <= i < |s| ==> r[i].name == s[i].name
    ensures forall i :: 0 <= i < |s| && s[i].name != name ==> r[i] == s[i]
    ensures forall u :: u !in urls ==> Match(r, u) == Match(s, u)
    decreases |urls|
  {
    if |urls| == 0 then s
    else
      var first := Put(s, name, urls[0], network(urls[0]).response);
      assert HasCache(first, name) <==> HasCache(s, name);
      assert forall u :: u in urls <==> u == urls[0] || u in urls[1..];
      var r := PutAll(first, name, urls[1..], network);
      forall u | u !in urls ensures Match(r, u) == Match(s, u) {
        PutKeepsOtherMatches(s, name, urls[0], network(urls[0]).response, u);
      }
      r
  }

  /** The install handler: open the static cache, then `addAll` the manifest.
      The batch is all or nothing: it succeeds exactly when every fetch yields an
      ok response, and then every manifest URL is in the static cache; otherwise
      no entry of any cache changes. Caches other than the static one never change. */
  function Install(s: Storage, origin: string, network: Url -> NetResult): (r: InstallResult)
    ensures r.Installed? <==> forall k :: 0 <= k < |Manifest| ==> Storable(network(Resolve(origin, Manifest[k])))
    ensures r.Installed? ==> forall k :: 0 <= k < |Manifest| ==>
              Lookup(r.storage, STATIC_CACHE, Resolve(origin, Manifest[k])) == Some(network(Resolve(origin, Manifest[k])).response)
    ensures r.InstallFailed? ==> forall n, u :: Lookup(r.storage, n, u) == Lookup(s, n, u)
    ensures forall n, u :: n != STATIC_CACHE ==> Lookup(r.storage, n, u) == Lookup(s, n, u)
    ensures r.Installed? ==> forall u :: u !in ManifestUrls(origin) ==>
              Lookup(r.storage, STATIC_CACHE, u) == Lookup(s, STATIC_CACHE, u)
    ensures HasCache(r.storage, STATIC_CACHE)
    ensures WellFormed(s) ==> WellFormed(r.storage)
    ensures SameOrder(s, r.storage)
    ensures forall i :: 0 <= i < |s| && s[i].name != STATIC_CACHE ==> r.storage[i] == s[i]
    ensures forall u :: u !in ManifestUrls(origin) ==> Match(r.storage, u) == Match(s, u)
  {
    var urls := ManifestUrls(origin);
    assert forall k :: 0 <= k < |Manifest| ==> urls[k] in urls;
    AddAll(s, urls, network)
  }

  /** `caches.open(STATIC_CACHE)` then `cache.addAll(urls)`, for any list of URLs. */
  function AddAll(s: Storage, urls: seq<Url>, network: Url -> NetResult): (r: InstallResult)
    ensures r.Installed? <==> forall u :: u in urls ==> Storable(network(u))
    ensures r.Installed? ==> forall u :: u in urls ==> Lookup(r.storage, STATIC_CACHE, u) == Some(network(u).response)
    ensures r.Installed? ==> forall u :: u !in urls ==> Lookup(r.storage, STATIC_CACHE, u) == Lookup(s, STATIC_CACHE, u)
    ensures r.InstallFailed? ==> forall n, u :: Lookup(r.storage, n, u) == Lookup(s, n, u)
    ensures forall n, u :: n != STATIC_CACHE ==> Lookup(r.storage, n, u) == Lookup(s, n, u)
    ensures HasCache(r.storage, STATIC_CACHE)
    ensures WellFormed(s) ==> WellFormed(r.storage)
    ensures SameOrder(s, r.storage)
    ensures forall i :: 0 <= i < |s| && s[i].name != STATIC_CACHE ==> r.storage[i] == s[i]
    ensures forall u :: u !in urls ==> Match(r.storage, u) == Match(s, u)
  {
    var cache := Open(s, STATIC_CACHE);
    OpenStatic(s);
    if forall u :: u in urls ==> Storable(network(u)) then
      PutAllOpened(s, urls, network);
      Installed(PutAll(cache, STATIC_CACHE, urls, network))
    else
      InstallFailed(cache)
  }

  /** Opening the static cache changes no entry and no earlier cache. */
  lemma OpenStatic(s: Storage)
    ensures forall n, u :: Lookup(Open(s, STATIC_CACHE), n, u) == Lookup(s, n, u)
    ensures forall u :: Match(Open(s, STATIC_CACHE), u) == Match(s, u)
    ensures SameOrder(s, Open(s, STATIC_CACHE))
    ensures forall i :: 0 <= i < |s| ==> Open(s, STATIC_CACHE)[i] == s[i]
  {
    var cache := Open(s, STATIC_CACHE);
    OpenKeepsEntries(s, STATIC_CACHE);
    assert cache[..|s|] == s;
    forall i | 0 <= i < |s| ensures cache[i] == s[i] {
      assert cache[..|s|][i] == cache[i];
    }
  }

  /** The successful batch, stated against the storage before the static cache was opened. */
  lemma PutAllOpened(s: Storage, urls: seq<Url>, network: Url -> NetResult)
    requires forall u :: u in urls ==> Storable(network(u))
    ensures forall u :: u in urls ==> network(u).Ok?
    ensures var r := PutAll(Open(s, STATIC_CACHE), STATIC_CACHE, urls, network);
      && (forall u :: u in urls ==> Lookup(r, STATIC_CACHE, u) == Some(network(u).response))
      && (forall u :: u !in urls ==> Lookup(r, STATIC_CACHE, u) == Lookup(s, STATIC_CACHE, u))
      && (forall n, u :: n != STATIC_CACHE ==> Lookup(r, n, u) == Lookup(s, n, u))
      && SameOrder(s, r)
      && (forall i :: 0 <= i < |s| && s[i].name != STATIC_CACHE ==> r[i] == s[i])
      && (forall u :: u !in urls ==> Match(r, u) == Match(s, u))
  {
    var cache := Open(s, STATIC_CACHE);
    OpenStatic(s);
    var r := PutAll(cache, STATIC_CACHE, urls, network);
    assert HasCache(cache, STATIC_CACHE);
    forall u | u in urls ensures Lookup(r, STATIC_CACHE, u) == Some(network(u).response) {
    }
    forall i | 0 <= i < |s| && s[i].name != STATIC_CACHE ensures r[i] == s[i] {
      assert cache[i] == s[i];
    }
  }

  // ---------------------------------------------------------------- activate

  /** Reference definition of the caches activate leaves: the current ones, in order. */
  function KeepCurrent(s: Storage): (r: Storage)
    ensures forall c :: c in r <==> c in s && IsCurrent(c.name)
    ensures |r| <= |s|
    ensures InOrder(r, s)
  {
    if |s| == 0 then []
    else
      assert forall c :: c in s <==> c == s[0] || c in s[1..];
      InOrderCons(s, KeepCurrent(s[1..]), IsCurrent(s[0].name));
      (if IsCurrent(s[0].name) then [s[0]] else []) + KeepCurrent(s[1..])
  }

  /** Activate keeps exactly the current names, with their entries untouched,
      and drops the legacy CACHE_NAME. */
  lemma KeepCurrentProperties(s: Storage)
    ensures forall n :: HasCache(KeepCurrent(s), n) <==> HasCache(s, n) && IsCurrent(n)
    ensures forall n, u :: IsCurrent(n) ==> Lookup(KeepCurrent(s), n, u) == Lookup(s, n, u)
    ensures !HasCache(KeepCurrent(s), CACHE_NAME)
    ensures WellFormed(s) ==> WellFormed(KeepCurrent(s))
  {
    KeepCurrentNames(s);
    forall n, u | IsCurrent(n) ensures Lookup(KeepCurrent(s), n, u) == Lookup(s, n, u) {
      KeepCurrentLookup(s, n, u);
    }
    if WellFormed(s) {
      KeepCurrentWellFormed(s);
    }
  }

  lemma KeepCurrentNames(s: Storage)
    ensures forall n :: HasCache(KeepCurrent(s), n) <==> HasCache(s, n) && IsCurrent(n)
  {
    var r := KeepCurrent(s);
    forall n ensures HasCache(r, n) <==> HasCache(s, n) && IsCurrent(n) {
      if HasCache(r, n) {
        var i :| 0 <= i < |r| && r[i].name == n;
        assert r[i] in r;
      }
      if HasCache(s, n) && IsCurrent(n) {
        var i :| 0 <= i < |s| && s[i].name == n;
        assert s[i] in s;
        assert s[i] in r;
        var j :| 0 <= j < |r| && r[j] == s[i];
      }
    }
  }

  lemma {:induction false} KeepCurrentLookup(s: Storage, n: string, u: Url)
    requires IsCurrent(n)
    ensures Lookup(KeepCurrent(s), n, u) == Lookup(s, n, u)
  {
    if |s| > 0 {
      KeepCurrentLookup(s[1..], n, u);
      var r := KeepCurrent(s);
      var tail := KeepCurrent(s[1..]);
      if IsCurrent(s[0].name) {
        assert r == [s[0]] + tail;
        assert r[0] == s[0] && r[1..] == tail;
        if s[0].name != n {
          assert Lookup(r, n, u) == Lookup(tail, n, u);
        }
      } else {
        assert r == tail;
      }
    }
  }

  lemma {:induction false} KeepCurrentWellFormed(s: Storage)
    requires WellFormed(s)
    ensures WellFormed(KeepCurrent(s))
  {
    if |s| > 0 {
      var tail := KeepCurrent(s[1..]);
      assert WellFormed(s[1..]) by {
        forall i, j | 0 <= i < j < |s[1..]| ensures s[1..][i].name != s[1..][j].name {
          assert s[1..][i] == s[i + 1] && s[1..][j] == s[j + 1];
        }
      }
      KeepCurrentWellFormed(s[1..]);
      if IsCurrent(s[0].name) {
        var r := KeepCurrent(s);
        assert r == [s[0]] + tail;
        forall c | c in tail ensures c.name != s[0].name {
          assert c in s[1..];
          var i :| 0 <= i < |s[1..]| && s[1..][i] == c;
          assert s[1..][i] == s[i + 1];
        }
        forall i, j | 0 <= i < j < |r| ensures r[i].name != r[j].name {
          assert r[j] == tail[j - 1] && r[j] in tail;
        }
      }
    }
  }

  /** The caches of `s` whose names are not in `gone`, in order. */
  ghost function Without(s: Storage, gone: set<string>): Storage {
    if |s| == 0 then []
    else (if s[0].name in gone then [] else [s[0]]) + Without(s[1..], gone)
  }

  lemma {:induction false} DeleteWithout(s: Storage, gone: set<string>, n: string)
    ensures Delete(Without(s, gone), n) == Without(s, gone + {n})
  {
    if |s| > 0 {
      DeleteWithout(s[1..], gone, n);
      var w := Without(s, gone);
      var rest := Without(s[1..], gone);
      if s[0].name in gone {
        assert w == rest;
      } else {
        assert w == [s[0]] + rest;
        assert w[0] == s[0] && w[1..] == rest;
        if s[0].name == n {
          assert Delete(w, n) == Delete(rest, n);
        } else {
          assert Delete(w, n) == [s[0]] + Delete(rest, n);
        }
      }
    }
  }

  lemma {:induction false} WithoutStaleIsCurrent(s: Storage, gone: set<string>)
    requires forall i :: 0 <= i < |s| ==> (s[i].name in gone <==> !IsCurrent(s[i].name))
    ensures Without(s, gone) == KeepCurrent(s)
  {
    if |s| > 0 {
      assert forall i :: 1 <= i < |s| ==> s[1..][i - 1] == s[i];
      WithoutStaleIsCurrent(s[1..], gone);
    }
  }

  /** The activate handler: list the cache names, then delete every one that is
      neither the current static nor the current dynamic cache. What is left is
      the reference filter `KeepCurrent`, whose properties `KeepCurrentProperties`
      states. */
  method Activate(s: Storage) returns (r: Storage)
    ensures r == KeepCurrent(s)
  {
    var names := seq(|s|, i requires 0 <= i < |s| => s[i].name);
    r := s;
    ghost var gone: set<string> := {};
    assert Without(s, {}) == s by {
      WithoutNothing(s);
    }
    var k := 0;
    while k < |names|
      invariant 0 <= k <= |names|
      invariant gone == set n | n in names[..k] && !IsCurrent(n)
      invariant r == Without(s, gone)
    {
      var name := names[k];
      assert names[..k + 1] == names[..k] + [name];
      if !IsCurrent(name) {
        DeleteWithout(s, gone, name);
        r := Delete(r, name);
        gone := gone + {name};
      }
      k := k + 1;
    }
    assert names[..k] == names;
    assert forall i :: 0 <= i < |s| ==> names[i] == s[i].name && names[i] in names;
    WithoutStaleIsCurrent(s, gone);
  }

  lemma {:induction false} WithoutNothing(s: Storage)
    ensures Without(s, {}) == s
  {
    if |s| > 0 {
      WithoutNothing(s[1..]);
    }
  }

  // ---------------------------------------------------------------- across calls

  /** Cache-first round trip: a miss that the network answers is stored, so the
      identical request next time is served that response with no fetch and no
      change to storage, whatever the network would do. */
  lemma CacheFirstRoundTrip(s: Storage, req: Request, resp: Response, later: NetResult)
    requires Route(req) == CacheFirst && HttpScheme(req) && Cacheable(resp)
    requires Match(s, req.url).None?
    ensures HandleFetch(s, req, Ok(resp)).reply == Served(resp)
    ensures var s1 := HandleFetch(s, req, Ok(resp)).storage;
            HandleFetch(s1, req, later) == Handled(Served(resp), s1, false)
  {
    PutAfterMissMatches(s, STATIC_CACHE, req.url, resp);
  }

  /** A partial response is never stored: after a cache-first miss answered
      with a 206, the identical request goes to the network again. */
  lemma PartialResponseRefetched(s: Storage, req: Request, resp: Response, later: NetResult)
    requires Route(req) == CacheFirst
    requires Match(s, req.url).None? && resp.status == 206
    ensures HandleFetch(s, req, Ok(resp)).reply == Served(resp)
    ensures HandleFetch(HandleFetch(s, req, Ok(resp)).storage, req, later).fetched
  {
    assert HandleFetch(s, req, Ok(resp)).storage == Open(s, STATIC_CACHE);
    OpenKeepsEntries(s, STATIC_CACHE);
  }

  /** Stale-while-revalidate refresh: when no cache other than the dynamic one
      holds the URL, the response a successful fetch brought back is what the next
      identical request is served, even if that later fetch fails. */
  lemma RevalidatedCopyServedNext(s: Storage, req: Request, newer: Response, later: NetResult)
    requires Route(req) == StaleWhileRevalidate && HttpScheme(req) && Cacheable(newer)
    requires forall i :: 0 <= i < |s| && s[i].name != DYNAMIC_CACHE ==> req.url !in s[i].entries
    ensures HandleFetch(HandleFetch(s, req, Ok(newer)).storage, req, later).reply == Served(newer)
  {
    MatchAfterPut(Open(s, DYNAMIC_CACHE), DYNAMIC_CACHE, req.url, newer);
  }

  /** `match` probes caches oldest first, so a copy held by a cache created before
      the dynamic cache (the static cache, which install creates, or any other)
      hides every revalidated copy: the request keeps being served the old
      response. */
  lemma OlderCacheShadowsRevalidation(s: Storage, req: Request, k: nat, newer: Response, later: NetResult)
    requires Route(req) == StaleWhileRevalidate
    requires k < |s| && req.url in s[k].entries
    requires forall j :: 0 <= j < k ==> req.url !in s[j].entries
    requires forall j :: 0 <= j <= k ==> s[j].name != DYNAMIC_CACHE
    ensures HandleFetch(HandleFetch(s, req, Ok(newer)).storage, req, later).reply == Served(s[k].entries[req.url])
  {
    var s1 := HandleFetch(s, req, Ok(newer)).storage;
    assert s1 == StoreCopy(s, DYNAMIC_CACHE, req, newer);
    var o := Open(s, DYNAMIC_CACHE);
    assert forall j :: 0 <= j <= k ==> s1[j] == s[j] by {
      assert forall j :: 0 <= j < |s| ==> o[j] == s[j] by {
        assert o[..|s|] == s;
      }
    }
    var m := Match(s1, req.url);
    assert s1[k] == s[k];
    assert m.Some?;
    var i :| 0 <= i < |s1| && req.url in s1[i].entries && m.value == s1[i].entries[req.url]
             && forall j :: 0 <= j < i ==> req.url !in s1[j].entries;
    assert i == k;
  }

  /** When every manifest fetch succeeds, install succeeds; after it and the
      following activate, every manifest URL that routes cache-first is served from the caches without a fetch. */
  lemma InstalledAssetsServedOffline(s: Storage, origin: string, network: Url -> NetResult,
                                     k: nat, req: Request, later: NetResult)
    requires WellFormed(s)
    requires forall j :: 0 <= j < |Manifest| ==> Storable(network(Resolve(origin, Manifest[j])))
    requires k < |Manifest| && req.url == Resolve(origin, Manifest[k])
    requires Route(req) == CacheFirst
    ensures Install(s, origin, network).Installed?
    ensures var active := KeepCurrent(Install(s, origin, network).storage);
            var h := HandleFetch(active, req, later);
            !h.fetched && h.reply.Served? && h.storage == active
  {
    var installed := Install(s, origin, network).storage;
    KeepCurrentProperties(installed);
    LookupHitMatches(KeepCurrent(installed), STATIC_CACHE, req.url);
  }
}

=== FILE: station_viz.dfy ===
/** The station-availability logic of the 3D station map: stations coloured by
    how full they are, a per-frame random drift of bike counts kept within
    capacity, and routes drawn only between stations that exist. Geometry,
    lighting and drawing are not modelled; the random source is a parameter. */
module StationViz {
  import opened Wrappers

  /** `(Math.random() - 0.5) * 2`: a drift in [-1, 1). */
  type Variation = v: real | -1.0 <= v < 1.0

  /** A `requestAnimationFrame` handle; the HTML standard makes these nonzero. */
  type FrameHandle = n: nat | n > 0 witness 1

  /** The availability indicator's colour: green 0x27ae60, orange 0xf39c12 or
      red 0xe74c3c as drawn. */
  datatype Colour = Green | Orange | Red

  /** Station data as listed in the page (coordinates left out). */
  datatype StationData = StationData(id: int, name: string, capacity: int, bikes: int)

  /** The record kept for each drawn station, with its indicator's colour. */
  datatype Station = Station(id: int, capacity: int, bikes: int, indicator: Colour)

  /** A route between two station ids with a drawing intensity. */
  datatype BikeRoute = BikeRoute(from: int, to: int, intensity: real)

  /** The visualisation's module state: stations, drawn routes, pending frame. */
  datatype Viz = Viz(stations: seq<Station>, routes: seq<BikeRoute>, animationId: Option<FrameHandle>)

  /** Outcome of a handler that may throw part-way: the state reached so far. */
  datatype Outcome = Completed(state: Viz) | Threw(state: Viz)

  const EmptyViz := Viz([], [], None)

  /** The three-way order of colours, worst first. */
  function Rank(c: Colour): nat {
    match c
    case Red => 0
    case Orange => 1
    case Green => 2
  }

  // ---------------------------------------------------------------- colour

  /** The colour rule, on the ratio bikes / capacity as JavaScript computes it:
      above one half green, above one fifth orange, otherwise red. With capacity
      zero the ratio is +Infinity (some bikes), NaN (none) or -Infinity, and every
      comparison with NaN is false. For a positive capacity the rule is exactly
      the integer comparisons 2 * bikes > capacity and 5 * bikes > capacity. */
  function Classify(bikes: int, capacity: int): (c: Colour)
    ensures capacity > 0 ==> (c == Green <==> 2 * bikes > capacity)
    ensures capacity > 0 ==> (c == Orange <==> 2 * bikes <= capacity < 5 * bikes)
    ensures capacity > 0 ==> (c == Red <==> 5 * bikes <= capacity)
    ensures capacity == 0 ==> (c == Green <==> bikes > 0)
  {
    if capacity == 0 then
      if bikes > 0 then Green else Red
    else
      var ratio := bikes as real / capacity as real;
      RatioScale(bikes, capacity);
      if ratio > 0.5 then Green
      else if ratio > 0.2 then Orange
      else Red
  }

  /** For a positive capacity, comparing the ratio with a threshold is comparing
      the counts multiplied out. */
  lemma RatioScale(bikes: int, capacity: int)
    requires capacity != 0
    ensures capacity > 0 ==> (bikes as real / capacity as real > 0.5 <==> 2 * bikes > capacity)
    ensures capacity > 0 ==> (bikes as real / capacity as real > 0.2 <==> 5 * bikes > capacity)
  {
    if capacity > 0 {
      var c := capacity as real;
      var q := bikes as real / c;
      assert q * c == bikes as real;
      ScaleBy(q, c, 0.5);
      ScaleBy(q, c, 0.2);
    }
  }

  /** Multiplying both sides by a positive number keeps a strict comparison. */
  lemma ScaleBy(q: real, c: real, t: real)
    requires c > 0.0
    ensures q > t <==> q * c > t * c
  {
    if q > t {
      assert (q - t) * c > 0.0;
    } else {
      assert (t - q) * c >= 0.0;
    }
  }

  /** More bikes never gives a worse colour. */
  lemma ClassifyMonotone(fewer: int, more: int, capacity: int)
    requires capacity > 0 && fewer <= more
    ensures Rank(Classify(fewer, capacity)) <= Rank(Classify(more, capacity))
  {
  }

  /** The station's indicator shows the colour its current count calls for. */
  predicate IndicatorAgrees(st: Station) {
    st.indicator == Classify(st.bikes, st.capacity)
  }

  // ---------------------------------------------------------------- stations

  /** The record made when a station is drawn: same id, capacity and count, and
      the indicator coloured by the rule. */
  function MakeStation(d: StationData): (st: Station)
    ensures st.id == d.id && st.capacity == d.capacity && st.bikes == d.bikes
    ensures IndicatorAgrees(st)
  {
    Station(d.id, d.capacity, d.bikes, Classify(d.bikes, d.capacity))
  }

  /** `createBikeStations`: one record per listed station, appended in order to
      the stations already recorded. */
  function CreateStations(v: Viz, data: seq<StationData>): (r: Viz)
    ensures |r.stations| == |v.stations| + |data|
    ensures r.stations[..|v.stations|] == v.stations
    ensures forall i :: 0 <= i < |data| ==>
              var st := r.stations[|v.stations| + i];
              st.id == data[i].id && st.capacity == data[i].capacity && st.bikes == data[i].bikes
              && IndicatorAgrees(st)
    ensures r.routes == v.routes && r.animationId == v.animationId
  {
    v.(stations := v.stations + seq(|data|, i requires 0 <= i < |data| => MakeStation(data[i])))
  }

  // ---------------------------------------------------------------- animation

  function Min(a: real, b: real): real { if a <= b then a else b }
  function Max(a: real, b: real): real { if a >= b then a else b }

  /** `Math.round`: the nearest integer, halves rounded up. */
  function Round(x: real): (r: int)
    ensures r as real - 0.5 <= x < r as real + 0.5
  {
    (x + 0.5).Floor
  }

  /** One frame's update of one station: drift the count, clamp it into
      [0, capacity], and if that differs from the count, store it rounded and
      recolour the indicator with the creation rule. */
  function UpdateStation(st: Station, drift: Variation): (r: Station)
    ensures r.id == st.id && r.capacity == st.capacity
    ensures r.bikes >= 0
    ensures st.capacity >= 0 ==> r.bikes <= st.capacity
    ensures IndicatorAgrees(st) ==> IndicatorAgrees(r)
    ensures IndicatorAgrees(st) && r.bikes == st.bikes ==> r == st
    ensures 0 <= st.bikes <= st.capacity ==> st.bikes - 1 <= r.bikes <= st.bikes + 1
    ensures 0 <= st.bikes <= st.capacity && -0.5 <= drift < 0.5 ==> r.bikes == st.bikes
    ensures 0 <= st.bikes <= st.capacity ==>
              r.bikes == st.bikes + (if drift >= 0.5 && st.bikes < st.capacity then 1
                                     else if drift < -0.5 && st.bikes > 0 then -1
                                     else 0)
    ensures 0 <= st.capacity < st.bikes ==> r.bikes == st.capacity
    ensures st.bikes < 0 || st.capacity < 0 ==> r.bikes == 0
    ensures r == st || r == st.(bikes := r.bikes, indicator := Classify(r.bikes, st.capacity))
  {
    var clamped := Max(0.0, Min(st.capacity as real, st.bikes as real + drift));
    if clamped != st.bikes as real then
      var b := Round(clamped);
      st.(bikes := b, indicator := Classify(b, st.capacity))
    else
      st
  }

  /** Every station's count lies within its capacity. */
  predicate CountsInRange(stations: seq<Station>) {
    forall i :: 0 <= i < |stations| ==> 0 <= stations[i].bikes <= stations[i].capacity
  }

  /** Every station's indicator agrees with its count. */
  predicate IndicatorsAgree(stations: seq<Station>) {
    forall i :: 0 <= i < |stations| ==> IndicatorAgrees(stations[i])
  }

  /** `animate`: schedule the next frame, then update every station with its own
      drift. Routes are not changed (only their opacity, not modelled, is). */
  function AnimateFrame(v: Viz, next: FrameHandle, drifts: seq<Variation>): (r: Viz)
    requires |drifts| == |v.stations|
    ensures r.animationId == Some(next) && r.routes == v.routes
    ensures |r.stations| == |v.stations|
    ensures forall i :: 0 <= i < |v.stations| ==>
              r.stations[i].id == v.stations[i].id && r.stations[i].capacity == v.stations[i].capacity
    ensures (forall i :: 0 <= i < |v.stations| ==> v.stations[i].capacity >= 0) ==> CountsInRange(r.stations)
    ensures IndicatorsAgree(v.stations) ==> IndicatorsAgree(r.stations)
    ensures forall i :: 0 <= i < |v.stations| ==> r.stations[i] == UpdateStation(v.stations[i], drifts[i])
  {
    var updated := seq(|v.stations|, i requires 0 <= i < |v.stations| => UpdateStation(v.stations[i], drifts[i]));
    Viz(updated, v.routes, Some(next))
  }

  // ---------------------------------------------------------------- routes

  predicate HasStation(stations: seq<Station>, id: int) {
    exists i :: 0 <= i < |stations| && stations[i].id == id
  }

  /** Both ends of the route are recorded stations. */
  predicate Resolvable(stations: seq<Station>, route: BikeRoute) {
    HasStation(stations, route.from) && HasStation(stations, route.to)
  }

  /** The routes whose two endpoint ids both name a recorded station, in input order. */
  function ResolveRoutes(stations: seq<Station>, routes: seq<BikeRoute>): (r: seq<BikeRoute>)
    ensures |r| <= |routes|
    ensures forall rt :: rt in r <==> rt in routes && Resolvable(stations, rt)
  {
    if |routes| == 0 then []
    else
      assert forall rt :: rt in routes <==> rt == routes[0] || rt in routes[1..];
      (if Resolvable(stations, routes[0]) then [routes[0]] else []) + ResolveRoutes(stations, routes[1..])
  }

  /** Resolution keeps input order: resolving a concatenation resolves each part. */
  lemma {:induction false} ResolveRoutesAppend(stations: seq<Station>, a: seq<BikeRoute>, b: seq<BikeRoute>)
    ensures ResolveRoutes(stations, a + b) == ResolveRoutes(stations, a) + ResolveRoutes(stations, b)
  {
    if |a| > 0 {
      assert (a + b)[0] == a[0] && (a + b)[1..] == a[1..] + b;
      ResolveRoutesAppend(stations, a[1..], b);
    } else {
      assert a + b == b;
    }
  }

  /** `createBikeRoutes`: the resolvable routes appended, in input order, to
      those already drawn. */
  function CreateRoutes(v: Viz, routes: seq<BikeRoute>): (r: Viz)
    ensures r.stations == v.stations && r.animationId == v.animationId
    ensures r.routes == v.routes + ResolveRoutes(v.stations, routes)
    ensures |v.routes| <= |r.routes| <= |v.routes| + |routes|
    ensures r.routes[..|v.routes|] == v.routes
    ensures forall i :: |v.routes| <= i < |r.routes| ==> Resolvable(v.stations, r.routes[i])
  {
    var added := ResolveRoutes(v.stations, routes);
    var r := v.(routes := v.routes + added);
    assert forall i :: |v.routes| <= i < |r.routes| ==> r.routes[i] == added[i - |v.routes|] && r.routes[i] in added;
    r
  }

  // ---------------------------------------------------------------- sample data

  const SampleStations: seq<StationData> := [
    StationData(1, "Clark/Lake", 31, 15),
    StationData(2, "State/Lake", 27, 12),
    StationData(3, "Michigan/Lake", 23, 8),
    StationData(4, "Millennium Park", 35, 22),
    StationData(5, "Theater District", 19, 6)
  ]

  const SampleRoutes: seq<BikeRoute> := [
    BikeRoute(1, 2, 0.8),
    BikeRoute(1, 4, 0.6),
    BikeRoute(2, 3, 0.7),
    BikeRoute(3, 4, 0.5),
    BikeRoute(4, 5, 0.4)
  ]

  /** On the page's own data Millennium Park starts green and the other four
      stations orange. */
  lemma SampleColours()
    ensures var v := CreateStations(EmptyViz, SampleStations);
            && v.stations[3].indicator == Green
            && forall i :: 0 <= i < 5 && i != 3 ==> v.stations[i].indicator == Orange
  {
    SampleClasses();
    CreatedIndicator(EmptyViz, SampleStations, 0);
    CreatedIndicator(EmptyViz, SampleStations, 1);
    CreatedIndicator(EmptyViz, SampleStations, 2);
    CreatedIndicator(EmptyViz, SampleStations, 3);
    CreatedIndicator(EmptyViz, SampleStations, 4);
  }

  /** The indicator of a newly recorded station follows the listed counts. */
  lemma CreatedIndicator(v: Viz, data: seq<StationData>, i: nat)
    requires i < |data|
    ensures CreateStations(v, data).stations[|v.stations| + i].indicator == Classify(data[i].bikes, data[i].capacity)
  {
  }

  lemma SampleClasses()
    ensures Classify(22, 35) == Green
    ensures Classify(15, 31) == Orange && Classify(12, 27) == Orange
    ensures Classify(8, 23) == Orange && Classify(6, 19) == Orange
  {
  }

  /** On the page's own data every listed route is drawn. */
  lemma SampleRoutesAllDrawn()
    ensures CreateRoutes(CreateStations(EmptyViz, SampleStations), SampleRoutes).routes == SampleRoutes
  {
    var stations := CreateStations(EmptyViz, SampleStations).stations;
    forall i | 0 <= i < 5 ensures stations[i].id == i + 1 { }
    forall k | 1 <= k <= 5 ensures HasStation(stations, k) {
      assert stations[k - 1].id == k;
    }
    forall i | 0 <= i < |SampleRoutes| ensures Resolvable(stations, SampleRoutes[i]) {
      assert 1 <= SampleRoutes[i].from <= 5 && 1 <= SampleRoutes[i].to <= 5;
    }
    ResolveAll(stations, SampleRoutes);
  }

  /** When every route is resolvable, resolution keeps them all. */
  lemma {:induction false} ResolveAll(stations: seq<Station>, routes: seq<BikeRoute>)
    requires forall i :: 0 <= i < |routes| ==> Resolvable(stations, routes[i])
    ensures ResolveRoutes(stations, routes) == routes
  {
    if |routes| > 0 {
      ResolveAll(stations, routes[1..]);
      assert [routes[0]] + routes[1..] == routes;
    }
  }

  // ---------------------------------------------------------------- lifecycle

  /** `init3DVisualization` as intended: record the stations, then the routes,
      and when the page has a container start the animation with its first frame. */
  function Init(v: Viz, data: seq<StationData>, routes: seq<BikeRoute>, hasContainer: bool,
                next: FrameHandle, drifts: seq<Variation>): (r: Viz)
    requires hasContainer ==> |drifts| == |v.stations| + |data|
    ensures |r.stations| == |v.stations| + |data|
    ensures forall i :: 0 <= i < |data| ==>
              r.stations[|v.stations| + i].id == data[i].id && r.stations[|v.stations| + i].capacity == data[i].capacity
    ensures forall i :: 0 <= i < |v.stations| ==>
              r.stations[i].id == v.stations[i].id && r.stations[i].capacity == v.stations[i].capacity
    ensures IndicatorsAgree(v.stations) ==> IndicatorsAgree(r.stations)
    ensures r.routes == v.routes + ResolveRoutes(r.stations, routes)
    ensures r.animationId == (if hasContainer then Some(next) else v.animationId)
  {
    var built := CreateRoutes(CreateStations(v, data), routes);
    if hasContainer then
      var r := AnimateFrame(built, next, drifts);
      SameIdsSameResolution(built.stations, r.stations, routes);
      r
    else
      built
  }

  lemma SameIdsSameStations(a: seq<Station>, b: seq<Station>, id: int)
    requires |a| == |b| && forall i :: 0 <= i < |a| ==> a[i].id == b[i].id
    ensures HasStation(a, id) <==> HasStation(b, id)
  {
    if HasStation(b, id) {
      var i :| 0 <= i < |b| && b[i].id == id;
      assert a[i].id == id;
    }
  }

  /** Which routes resolve depends only on the stations' ids, so the animation,
      which changes only counts and colours, never changes it. */
  lemma {:induction false} SameIdsSameResolution(a: seq<Station>, b: seq<Station>, routes: seq<BikeRoute>)
    requires |a| == |b| && forall i :: 0 <= i < |a| ==> a[i].id == b[i].id
    ensures ResolveRoutes(a, routes) == ResolveRoutes(b, routes)
  {
    if |routes| > 0 {
      SameIdsSameStations(a, b, routes[0].from);
      SameIdsSameStations(a, b, routes[0].to);
      SameIdsSameResolution(a, b, routes[1..]);
    }
  }

  /** `init3DVisualization` as written: it attaches `renderer.domElement`, but no
      script declares `renderer`, so with a container present the call throws a
      ReferenceError after the stations and routes are recorded and before the
      animation starts. */
  function InitAsWritten(v: Viz, data: seq<StationData>, routes: seq<BikeRoute>, hasContainer: bool): (o: Outcome)
    ensures o.Threw? <==> hasContainer
    ensures o.state.animationId == v.animationId
    ensures |o.state.stations| == |v.stations| + |data|
  {
    var built := CreateRoutes(CreateStations(v, data), routes);
    if hasContainer then Threw(built) else Completed(built)
  }

  /** As written, the animation never starts: with a container the initialisation
      throws, where the intended one has scheduled a frame. */
  lemma InitAsWrittenNeverAnimates(data: seq<StationData>, routes: seq<BikeRoute>, next: FrameHandle,
                                   drifts: seq<Variation>)
    requires |drifts| == |data|
    ensures InitAsWritten(EmptyViz, data, routes, true).state.animationId.None?
    ensures Init(EmptyViz, data, routes, true, next, drifts).animationId == Some(next)
  {
  }

  /** `cleanup3DVisualization` as intended: cancel the pending frame and forget
      every station and route, so nothing is animated and no route can be drawn
      until stations are recorded again. */
  function Cleanup(v: Viz): (r: Viz)
    ensures r.animationId.None?
    ensures forall id :: !HasStation(r.stations, id)
    ensures forall routes :: ResolveRoutes(r.stations, routes) == []
    ensures r.routes == []
  {
    var r := Viz([], [], None);
    forall routes ensures ResolveRoutes(r.stations, routes) == [] {
      NothingResolves(r.stations, routes);
    }
    r
  }

  lemma {:induction false} NothingResolves(stations: seq<Station>, routes: seq<BikeRoute>)
    requires stations == []
    ensures ResolveRoutes(stations, routes) == []
  {
    if |routes| > 0 {
      NothingResolves(stations, routes[1..]);
    }
  }

  /** After cleanup, initialising again records exactly the given stations:
      nothing from before the cleanup survives. */
  lemma ReinitAfterCleanup(v: Viz, data: seq<StationData>, routes: seq<BikeRoute>)
    ensures var r := Init(Cleanup(v), data, routes, false, 1, []);
            |r.stations| == |data| && r.animationId.None?
            && r.routes == ResolveRoutes(r.stations, routes)
            && forall i :: 0 <= i < |r.routes| ==> Resolvable(r.stations, r.routes[i])
  {
  }

  /** `cleanup3DVisualization` as written: the pending frame is cancelled, then
      the test `if (renderer)` reads an undeclared name and throws before the
      station and route lists are reset. */
  function CleanupAsWritten(v: Viz): (o: Outcome)
    ensures o.Threw?
    ensures o.state.animationId.None?
    ensures o.state.stations == v.stations && o.state.routes == v.routes
  {
    Threw(v.(animationId := None))
  }

  /** As written, cleanup leaves every recorded station in place. */
  lemma CleanupAsWrittenKeepsStations(v: Viz)
    requires |v.stations| > 0
    ensures |CleanupAsWritten(v).state.stations| > 0
    ensures Cleanup(v).stations == []
  {
  }
}

=== FILE: text.dfy ===
/** The string operations the dashboard's scripts rely on, with JavaScript's semantics. */
module Text {

  /** `sub` occurs in `s` starting at position `i`. */
  predicate OccursAt(s: string, sub: string, i: nat) {
    i + |sub| <= |s| && s[i..i + |sub|] == sub
  }

  /** `sub` occurs somewhere in `s`. */
  ghost predicate Contains(s: string, sub: string) {
    exists i: nat :: OccursAt(s, sub, i)
  }

  /** JavaScript's `String.prototype.includes`: a left-to-right scan for `sub`.
      The result is true exactly when `sub` occurs somewhere in `s`. */
  function Includes(s: string, sub: string): (r: bool)
    ensures r <==> Contains(s, sub)
    decreases |s|
  {
    if |sub| > |s| then
      false
    else if s[..|sub|] == sub then
      assert OccursAt(s, sub, 0);
      true
    else
      var r := Includes(s[1..], sub);
      ShiftOccurrence(s, sub);
      r
  }

  /** An occurrence in the tail of `s` is an occurrence one further right in `s`,
      and every occurrence in `s` other than at 0 arises that way. */
  lemma ShiftOccurrence(s: string, sub: string)
    requires |s| > 0
    requires !OccursAt(s, sub, 0)
    ensures Contains(s[1..], sub) <==> Contains(s, sub)
  {
    forall i: nat | OccursAt(s[1..], sub, i)
      ensures OccursAt(s, sub, i + 1)
    {
      assert s[1..][i..i + |sub|] == s[i + 1..i + 1 + |sub|];
    }
    forall i: nat | OccursAt(s, sub, i)
      ensures i > 0 && OccursAt(s[1..], sub, i - 1)
    {
      assert s[1..][i - 1..i - 1 + |sub|] == s[i..i + |sub|];
    }
  }

}

=== FILE: theme_toggle.dfy ===
/** The page's light/dark theme: the remembered preference, the toggle button,
    the colours pushed to every chart on a switch, and the two small mobile
    helpers (menu toggle and chart height). The browser's storage, document
    attribute and button are fields of an explicit page state. */
module ThemeToggle {
  import opened Wrappers

  const Dark := "dark"
  const Light := "light"
  const SunIcon := "\U{2600}\U{FE0F}"
  const MoonIcon := "\U{1F319}"

  /** The toggle button's visible icon and tooltip. */
  datatype Button = Button(icon: string, title: string)

  /** What the script reads and writes: the module's current theme, the document's
      `data-theme` attribute, the stored `theme` preference and the button it made. */
  datatype Page = Page(theme: string, dataTheme: Option<string>, stored: Option<string>, button: Option<Button>)

  /** A chart element: whether Plotly has laid it out, and the types of its
      traces when it has data. */
  datatype Chart = Chart(laidOut: bool, traceTypes: Option<seq<string>>)

  /** The colours a theme gives charts. */
  datatype Palette = Palette(background: string, text: string, grid: string, nodeLine: string)

  /** The result of a click on the toggle: the new page state and, per chart, the
      layout update sent to it (none for charts that are not laid out, and no
      chart is touched when Plotly is not loaded). */
  datatype Toggled = Toggled(page: Page, relayouts: seq<Option<map<LayoutKey, string>>>)

  /** The open state of the mobile menu and its `aria-expanded` attribute. */
  datatype Menu = Menu(open: bool, ariaExpanded: string)

  /** A stored value counts only when it is a non-empty string (JavaScript truthiness). */
  predicate Truthy(v: Option<string>) {
    v.Some? && v.value != ""
  }

  // ---------------------------------------------------------------- theme choice

  /** The module-level starting theme: the stored value, or light. */
  function StartingTheme(stored: Option<string>): (t: string)
    ensures t != ""
    ensures Truthy(stored) ==> t == stored.value
    ensures !Truthy(stored) ==> t == Light
  {
    if Truthy(stored) then stored.value else Light
  }

  /** The theme `initTheme` settles on: a saved preference wins; without one the
      system's dark-mode preference decides between the two themes. */
  function InitialChoice(saved: Option<string>, prefersDark: bool): (t: string)
    ensures t != ""
    ensures Truthy(saved) ==> t == saved.value
    ensures !Truthy(saved) ==> (t == Dark || t == Light) && (t == Dark <==> prefersDark)
  {
    if Truthy(saved) then saved.value
    else if prefersDark then Dark
    else Light
  }

  /** The toggle's rule: dark becomes light and anything else becomes dark. */
  function Toggle(t: string): (r: string)
    ensures r == Dark || r == Light
    ensures (r == Dark) != (t == Dark)
  {
    if t == Dark then Light else Dark
  }

  /** Toggling twice returns to the start exactly for the two real themes; any
      other stored string is replaced by dark after one toggle and by light
      after two. */
  lemma ToggleInvolution(t: string)
    ensures Toggle(Toggle(t)) == t <==> t == Dark || t == Light
  {
  }

  // ---------------------------------------------------------------- button

  /** The button for a theme: the sun when dark, the moon otherwise, and a title
      naming the theme a click switches to. */
  function ButtonFor(theme: string): (b: Button)
    ensures b.icon == SunIcon <==> theme == Dark
    ensures b.icon == MoonIcon <==> theme != Dark
    ensures b.title == "Switch to " + Toggle(theme) + " theme"
  {
    var other := if theme == Dark then Light else Dark;
    Button(if theme == Dark then SunIcon else MoonIcon, "Switch to " + other + " theme")
  }

  /** `updateThemeToggleButton`: refresh the button when the script made one. */
  function UpdateButton(p: Page): (r: Page)
    ensures r.theme == p.theme && r.dataTheme == p.dataTheme && r.stored == p.stored
    ensures r.button.Some? <==> p.button.Some?
    ensures r.button.Some? ==> r.button.value == ButtonFor(p.theme)
  {
    if p.button.Some? then p.(button := Some(ButtonFor(p.theme))) else p
  }

  /** The button matches the theme, if there is one. */
  predicate ButtonShowsTheme(p: Page) {
    p.button.Some? ==> p.button.value == ButtonFor(p.theme)
  }

  // ---------------------------------------------------------------- init and toggle

  /** The page before `initTheme` runs. */
  function InitialPage(stored: Option<string>): (p: Page)
    ensures p.theme == StartingTheme(stored) && p.stored == stored
    ensures p.dataTheme.None? && p.button.None?
  {
    Page(StartingTheme(stored), None, stored, None)
  }

  /** `initTheme`: choose the theme from the stored preference or the system
      preference, apply it to the document, create the button unless the page
      already has an element with its id, and bring the button up to date. The
      stored preference is not written. */
  function InitTheme(p: Page, prefersDark: bool, hasToggleElement: bool): (r: Page)
    ensures r.theme == InitialChoice(p.stored, prefersDark)
    ensures r.dataTheme == Some(r.theme)
    ensures r.stored == p.stored
    ensures !hasToggleElement ==> r.button == Some(ButtonFor(r.theme))
    ensures hasToggleElement ==> (r.button.Some? <==> p.button.Some?)
    ensures ButtonShowsTheme(r)
  {
    var theme := InitialChoice(p.stored, prefersDark);
    var applied := p.(theme := theme, dataTheme := Some(theme));
    // createThemeToggle sets only the icon; the update that follows sets the title.
    var created :=
      if hasToggleElement then applied
      else applied.(button := Some(Button(if theme == Dark then SunIcon else MoonIcon, "")));
    UpdateButton(created)
  }

  /** `toggleTheme`: switch the theme, apply it to the document, persist it,
      refresh the button, and when Plotly is loaded restyle every chart. */
  function ToggleTheme(p: Page, plotlyLoaded: bool, charts: seq<Chart>): (r: Toggled)
    ensures r.page.theme == Toggle(p.theme)
    ensures r.page.dataTheme == Some(r.page.theme) && r.page.stored == Some(r.page.theme)
    ensures r.page.button.Some? <==> p.button.Some?
    ensures ButtonShowsTheme(r.page)
    ensures plotlyLoaded ==> |r.relayouts| == |charts|
    ensures plotlyLoaded ==> forall i :: 0 <= i < |charts| ==>
              (r.relayouts[i].Some? <==> charts[i].laidOut)
              && (r.relayouts[i].Some? ==> r.relayouts[i].value == ChartUpdate(r.page.theme, charts[i].traceTypes))
    ensures !plotlyLoaded ==> r.relayouts == []
  {
    var theme := Toggle(p.theme);
    var page := UpdateButton(p.(theme := theme, dataTheme := Some(theme), stored := Some(theme)));
    Toggled(page, if plotlyLoaded then UpdateChartThemes(theme, charts) else [])
  }

  /** Two clicks on a page showing one of the two themes restore that theme, in
      the module, the document and the stored preference. */
  lemma ToggleTwiceRestores(p: Page, plotlyLoaded: bool, charts: seq<Chart>)
    requires p.theme == Dark || p.theme == Light
    ensures var twice := ToggleTheme(ToggleTheme(p, plotlyLoaded, charts).page, plotlyLoaded, charts).page;
            twice.theme == p.theme && twice.dataTheme == Some(p.theme) && twice.stored == Some(p.theme)
            && (p.button.Some? ==> twice.button == Some(ButtonFor(p.theme)))
  {
  }

  /** The theme `initTheme` applies to a fresh page differs from the module's
      starting theme only when nothing usable is stored and the system prefers
      dark: the starting theme then says light, the applied one dark. */
  lemma InitThemeKeepsStartingTheme(stored: Option<string>, prefersDark: bool, hasToggleElement: bool)
    ensures InitTheme(InitialPage(stored), prefersDark, hasToggleElement).theme == StartingTheme(stored)
            <==> Truthy(stored) || !prefersDark
  {
  }

  // ---------------------------------------------------------------- charts

  /** The layout attributes a theme switch sets, as Plotly attribute paths. */
  datatype LayoutKey =
    | PaperBgcolor | PlotBgcolor | FontColor
    | XaxisGridcolor | YaxisGridcolor | XaxisLinecolor | YaxisLinecolor
    | XaxisTickcolor | YaxisTickcolor | XaxisTickfontColor | YaxisTickfontColor
    | NodeLineColor
  {
    function Path(): string {
      match this
      case PaperBgcolor => "paper_bgcolor"
      case PlotBgcolor => "plot_bgcolor"
      case FontColor => "font.color"
      case XaxisGridcolor => "xaxis.gridcolor"
      case YaxisGridcolor => "yaxis.gridcolor"
      case XaxisLinecolor => "xaxis.linecolor"
      case YaxisLinecolor => "yaxis.linecolor"
      case XaxisTickcolor => "xaxis.tickcolor"
      case YaxisTickcolor => "yaxis.tickcolor"
      case XaxisTickfontColor => "xaxis.tickfont.color"
      case YaxisTickfontColor => "yaxis.tickfont.color"
      case NodeLineColor => "node.line.color"
    }
  }

  /** The eleven keys every laid-out chart receives. */
  const StandardKeys: set<LayoutKey> := {
    PaperBgcolor, PlotBgcolor, FontColor,
    XaxisGridcolor, YaxisGridcolor, XaxisLinecolor, YaxisLinecolor,
    XaxisTickcolor, YaxisTickcolor, XaxisTickfontColor, YaxisTickfontColor
  }

  /** The palette colour each key takes. */
  function ColourFor(c: Palette, k: LayoutKey): string {
    match k
    case PaperBgcolor | PlotBgcolor => c.background
    case XaxisGridcolor | YaxisGridcolor | XaxisLinecolor | YaxisLinecolor => c.grid
    case NodeLineColor => c.nodeLine
    case _ => c.text
  }

  /** The chart colours: only whether the theme is dark matters. */
  function PaletteFor(theme: string): (c: Palette)
    ensures theme == Dark ==> c == Palette("rgba(0,0,0,0)", "#ffffff", "rgba(255,255,255,0.1)", "var(--neutral-400)")
    ensures theme != Dark ==> c == Palette("rgba(255,255,255,0.9)", "#2c3e50", "rgba(0,0,0,0.1)", "#000000")
  {
    var isDark := theme == Dark;
    Palette(
      if isDark then "rgba(0,0,0,0)" else "rgba(255,255,255,0.9)",
      if isDark then "#ffffff" else "#2c3e50",
      if isDark then "rgba(255,255,255,0.1)" else "rgba(0,0,0,0.1)",
      if isDark then "var(--neutral-400)" else "#000000")
  }

  /** Some trace of the chart is a Sankey diagram. */
  predicate HasSankey(traceTypes: Option<seq<string>>) {
    traceTypes.Some? && exists i :: 0 <= i < |traceTypes.value| && traceTypes.value[i] == "sankey"
  }

  /** The layout update sent to one chart: the eleven standard keys, plus the
      Sankey node outline exactly when the chart has a Sankey trace; every key
      carries the palette colour for its role (backgrounds, text, grid lines). */
  function ChartUpdate(theme: string, traceTypes: Option<seq<string>>): (m: map<LayoutKey, string>)
    ensures m.Keys == StandardKeys + (if HasSankey(traceTypes) then {NodeLineColor} else {})
    ensures forall k :: k in m ==> m[k] == ColourFor(PaletteFor(theme), k)
  {
    var c := PaletteFor(theme);
    var standard := StandardUpdate(c);
    StandardUpdateColours(c);
    if HasSankey(traceTypes) then
      AddNodeLine(c);
      standard[NodeLineColor := c.nodeLine]
    else
      standard
  }

  /** Adding the Sankey node outline to the standard pairs adds exactly that key,
      with its role's colour. */
  lemma AddNodeLine(c: Palette)
    ensures var m := StandardUpdate(c)[NodeLineColor := c.nodeLine];
            m.Keys == StandardKeys + {NodeLineColor}
            && forall k :: k in m ==> m[k] == ColourFor(c, k)
  {
    StandardUpdateColours(c);
  }

  /** The eleven standard pairs, written out as the script lists them. */
  function StandardUpdate(c: Palette): (m: map<LayoutKey, string>)
    ensures m.Keys == StandardKeys
  {
    map[
      PaperBgcolor := c.background,
      PlotBgcolor := c.background,
      FontColor := c.text,
      XaxisGridcolor := c.grid,
      YaxisGridcolor := c.grid,
      XaxisLinecolor := c.grid,
      YaxisLinecolor := c.grid,
      XaxisTickcolor := c.text,
      YaxisTickcolor := c.text,
      XaxisTickfontColor := c.text,
      YaxisTickfontColor := c.text
    ]
  }

  lemma StandardUpdateColours(c: Palette)
    ensures forall k :: k in StandardUpdate(c) ==> StandardUpdate(c)[k] == ColourFor(c, k)
  {
    var m := StandardUpdate(c);
    forall k | k in m ensures m[k] == ColourFor(c, k) {
      match k
      case PaperBgcolor =>
      case PlotBgcolor =>
      case FontColor =>
      case XaxisGridcolor =>
      case YaxisGridcolor =>
      case XaxisLinecolor =>
      case YaxisLinecolor =>
      case XaxisTickcolor =>
      case YaxisTickcolor =>
      case XaxisTickfontColor =>
      case YaxisTickfontColor =>
    }
  }

  /** `updateChartThemes`: one update per laid-out chart, none for the others. */
  function UpdateChartThemes(theme: string, charts: seq<Chart>): (r: seq<Option<map<LayoutKey, string>>>)
    ensures |r| == |charts|
    ensures forall i :: 0 <= i < |charts| ==>
              (r[i].Some? <==> charts[i].laidOut)
              && (r[i].Some? ==> r[i].value == ChartUpdate(theme, charts[i].traceTypes))
  {
    seq(|charts|, i requires 0 <= i < |charts| =>
      if charts[i].laidOut then Some(ChartUpdate(theme, charts[i].traceTypes)) else None)
  }

  /** The update object has eleven keys, twelve with a Sankey trace. */
  lemma ChartUpdateSize(theme: string, traceTypes: Option<seq<string>>)
    ensures |ChartUpdate(theme, traceTypes)| == (if HasSankey(traceTypes) then 12 else 11)
  {
    assert |StandardKeys| == 11;
    assert NodeLineColor !in StandardKeys;
  }

  /** The attribute paths are pairwise distinct, so a map keyed by `LayoutKey`
      is the same update as Plotly's object keyed by path strings. */
  lemma PathsDistinct(a: LayoutKey, b: LayoutKey)
    ensures a.Path() == b.Path() <==> a == b
  {
  }

  /** Two themes that agree on being dark restyle every chart identically. */
  lemma ChartUpdateOnlyDarknessMatters(t1: string, t2: string, traceTypes: Option<seq<string>>)
    requires (t1 == Dark) == (t2 == Dark)
    ensures ChartUpdate(t1, traceTypes) == ChartUpdate(t2, traceTypes)
  {
  }

  // ---------------------------------------------------------------- mobile

  /** JavaScript's rendering of a boolean attribute value. */
  function BoolText(b: bool): string {
    if b then "true" else "false"
  }

  /** The mobile menu toggle: flip the open class and report the new state in
      `aria-expanded`. */
  function ToggleMenu(m: Menu): (r: Menu)
    ensures r.open == !m.open
    ensures r.ariaExpanded == "true" <==> r.open
    ensures r.ariaExpanded == "false" <==> !r.open
  {
    var open := !m.open;
    Menu(open, BoolText(open))
  }

  /** Two activations of the menu toggle restore the open state, and the
      attribute then reports it. */
  lemma ToggleMenuTwice(m: Menu)
    ensures ToggleMenu(ToggleMenu(m)).open == m.open
    ensures ToggleMenu(ToggleMenu(m)).ariaExpanded == "true" <==> m.open
  {
  }

  /** The chart container height: 300px below a 768px-wide window, 400px from 768px up. */
  function ChartHeight(width: int): (h: string)
    ensures h == "300px" <==> width < 768
    ensures h == "400px" <==> width >= 768
  {
    if width < 768 then "300px" else "400px"
  }

  /** A wider window never gets a shorter chart. */
  lemma ChartHeightMonotone(narrow: int, wide: int)
    requires narrow <= wide
    ensures ChartHeight(narrow) == "400px" ==> ChartHeight(wide) == "400px"
    ensures ChartHeight(wide) == "300px" ==> ChartHeight(narrow) == "300px"
  {
  }
}

=== FILE: wrappers.dfy ===
/** Optional values, shared by the other modules. */
module Wrappers {

  datatype Option<+T> = None | Some(value: T)
}
